=== FILE: README.md ===
# Parcer: a verified model of a backtracking recursive-descent parser

This project models the parser class `Parcer` of a small translator
(`Lab2/src/com/company/Parcer.java`). The parser takes the lexer's finished
token list and builds a syntax tree. Its state is a cursor into the token
list, a stack of open container nodes seeded with the root, and a shared
error log of `(position, message)` pairs. Grammar alternatives are tried
speculatively by `tryStep`. It runs a production and, if the production
throws, restores the cursor, the stack depth and the child count of the
current container. `expr` tries the statement productions in a fixed order.
When all of them fail, it recovers at the furthest failure and skips one
token.

## How the model is organised

| file | module | contents |
|---|---|---|
| `tokens.dfy` | `Tokens` | terminal types and tokens `(type, text, start)` |
| `errorlog.dfy` | `ErrorLog` | failure messages, error records, the stable descending sort of the log |
| `state.dfy` | `ParseState` | the state, the tree arena, the attach/push/pop primitives, rollback, and the `Grows` frame relation |
| `parser.dfy` | `Parser` | the token helpers, `run`, `expr`, every production, `tryStep` |
| `frames.dfy` | `ParserFrames` | each production only appends to the context it starts in and leaves the stack as it found it |
| `shapes.dfy` | `ParserShapes` | what each production attaches: node kinds, flat operator chains, condition ownership |
| `outcome.dfy` | `ParserOutcome` | a production's outcome depends only on the tokens and the cursor, and the `\|\|` chain commits the first alternative that succeeds |
| `recovery.dfy` | `ParserRecovery` | rollback, the error log, furthest-failure recovery, and the outcome of a run |
| `scenarios.dfy` | `ParserScenarios` | two concrete inputs that show the behaviour as written |

The state is an immutable datatype, and every production is a function.

- **Exceptions.** A production returns `Ok(state)` or `Fail(state, msg)`, where the state is the one at the moment of the throw. `:-` propagates a failure exactly as an uncaught exception does.
- **The tree.** The tree is an arena of nodes addressed by id, each node with an ordered child list. The container stack holds ids. `backtrack(n)` becomes truncation of the child list to length `n`.
- **Owned fields.** The `condition`, `elseBody`, `left` and `right` fields of the node classes are node ids held in the node's kind. They are not children.
- **Termination.** It is proved by `decreases (tokens left, rank)`. Every production consumes a token before it re-enters a production of equal or higher rank.
- **Continuation functions.** Long productions are split into a head and a continuation function, so that each proof stays small. The splits are `WhileHead` (lines 91-99), `IfHead` (lines 108-116), `ParseElse`, `ParseCallRest`, `ParseVarDefRest`, `ParseTerm`/`ParseValueTail`, `ParseSide`, `ParseInitializer` and `Recover`. The composition is the source's straight-line code. Shared pieces are functions of their own: `ParseBlock` is the `BODY_OPEN expr BODY_CLOSE` sequence of lines 84-86, 101-103, 118-120 and 127-129; `OpenElse` is lines 124-125; `ParseArgs` is one pass of the `do`-`while` at lines 170-179; `ParseParenthesized` and `ParseOperand` are the two branches of `value`; `Apply` turns a rule into the method reference passed to `tryStep` at lines 54-60.

### Behaviour as written

The grammar in the header comment of `Parcer.java` differs from the code. The model follows the code:

- **`var_def`.** The `ASSIGN_OP value` part is optional (line 193). The `AssignNode` is a sibling of the `VarDefineNode`, not its child (`ParserShapes.VarDefShape`).
- **`call`.** It does not consume `LINE_END`. Only `call_e` does (lines 156-183).
- **Parenthesised `value`.** It closes with `BRACED_CLOSE`, not `BRACED_OPEN` (line 223).
- **The argument loop of `call`.**
  - It tests for `COMMA` but never consumes it (line 178). The next argument is parsed starting at the comma, and that always fails (`ParserShapes.ArgsAtCommaFails`).
  - A call therefore parses with at most one argument (`ParserShapes.CallShape`), and `f(1, 2)` is never a call (`ParserScenarios.TwoArgumentCallFails`).
- **Flat operator chains.** `value` chains operators flatly. Operands and `MathOperationNode`s alternate as siblings in one container, with no precedence nesting (`ParserShapes.ValueShape`).
- **Fatal recovery path.**
  - `stepIF(ELSE)` after the then-block of an `if` reads a token like any other, so an `if` without `else` at the very end of the input fails at the end of input.
  - That failure is the furthest one recorded. Recovery sets the cursor to it, and `current()` at line 69 then throws out of `expr` and out of `run`.
  - `ParserScenarios.TrailingIfFailsRun` proves this for `if ( a < 1 ) { }`. `ParserRecovery.RecoverJumpsPastFurthest` states exactly when it happens.
- **The dead `else` branch.** The `else` branch of the recovery (lines 71-74) is unreachable. When every alternative fails, the last one has logged its failure (`ParserRecovery.StatementFailureIsLogged`).

## Model

| member | source | states |
|---|---|---|
| Parser.Current | Lab2/src/com/company/Parcer.java:327-333 | succeeds exactly when the cursor is inside the token list, and then yields the token under it; otherwise fails with end-of-input and changes nothing |
| Parser.Check | Lab2/src/com/company/Parcer.java:311-314 | fails with end-of-input exactly past the last token; otherwise answers whether the current token has the given type |
| Parser.StepIf | Lab2/src/com/company/Parcer.java:301-309 | advances the cursor by exactly one when the current token has the type, leaves the state unchanged when it has another type, and fails only at end of input |
| Parser.CheckAndStep | Lab2/src/com/company/Parcer.java:316-325 | on a match, returns the token's text and advances by exactly one; on a mismatch, fails with "expected t" (end-of-input past the last token) at the unchanged state |
| Parser.TokenHelpersAgree | Lab2/src/com/company/Parcer.java:301-333 | `check`, `stepIF` and `checkAndStep` fail exactly when `current()` does, all with end-of-input at the unchanged state; `stepIF` steps exactly when `check` answers yes; `checkAndStep` succeeds exactly when `stepIF` steps, in the same resulting state, returning the current token's text |
| ParseState.AddNode | Lab2/src/com/company/Parcer.java:340-343 | the new node is appended to the arena and as the last child of the stack top; the stack and every other node are unchanged |
| ParseState.AddAndPush | Lab2/src/com/company/Parcer.java:345-349 | the same append as `addNode`, then the stack grows by exactly the new node, which becomes the current context |
| ParseState.AddNodeGrows | Lab2/src/com/company/Parcer.java:340-343 | `addNode` is a growth step of the tree that attaches exactly the new node to the current context |
| ParseState.AddAndPushGrows | Lab2/src/com/company/Parcer.java:345-349 | `addAndPushNode` is a growth step that attaches exactly the new node |
| ParseState.RestoreUndoes | Lab2/src/com/company/Parcer.java:288-294 | after any growth step, restoring to the snapshotted depth and child count gives back the original stack and every original node |
| Parser.TryStep | Lab2/src/com/company/Parcer.java:273-299 | returns true exactly when the production succeeds and then commits the production's own result unchanged, with no rollback and no record of its own; on failure the cursor is back at entry and the log is the failing state's log plus one record at the failure position, never before the entry cursor |
| ParserRecovery.TryStepRollback | Lab2/src/com/company/Parcer.java:273-296 | a failed attempt, however deep the failure, leaves the cursor, the stack depth, the current context's child count and every pre-existing node as at entry, and ends the log with a record at or after the entry cursor |
| ParserFrames.TryStepFrame | Lab2/src/com/company/Parcer.java:273-299 | whether the attempt succeeds or not, the tree only grows in the context it started in and the stack is as at entry |
| Parser.Apply | Lab2/src/com/company/Parcer.java:54-60 | whichever production a method reference names, the cursor never moves back, a success consumes input, and new log records lie at or after the entry cursor |
| Parser.TryInOrder | Lab2/src/com/company/Parcer.java:54-61 | the cursor never moves back; when some alternative succeeds input has been consumed, and when none does the cursor is back where it started, with every new record at or after it |
| ParserOutcome.FirstSuccess | Lab2/src/com/company/Parcer.java:54-61 | the reference for the `\|\|` chain: names the first alternative whose production succeeds from the cursor, every earlier one failing from it, or none when all of them fail |
| ParserOutcome.TryInOrderFirstSuccess | Lab2/src/com/company/Parcer.java:54-61 | the chain, for all inputs, succeeds exactly when some alternative's production succeeds from the cursor, and then stops where the first successful production, run from that cursor, stops |
| ParserOutcome.FirstSuccessAgree | Lab2/src/com/company/Parcer.java:54-61 | which alternative succeeds first depends only on the tokens and the cursor, so a rolled-back state picks the same one as the state before the attempt |
| ParserOutcome.TryInOrderAgree | Lab2/src/com/company/Parcer.java:54-61 | from the same cursor the chain gives the same answer and cursor whatever the tree, and the same log when it starts from the same log |
| ParserOutcome.TryStepAgree | Lab2/src/com/company/Parcer.java:273-299 | from the same cursor an attempt gives the same answer and cursor whatever the tree, and the same log when it starts from the same log |
| ParserOutcome.ApplyAgree | Lab2/src/com/company/Parcer.java:54-60 | whether the production a rule names succeeds, where it stops and the message it fails with depend only on the tokens and the cursor, never on the tree; from the same log it leaves the same log |
| ParserOutcome.ExprAgree | Lab2/src/com/company/Parcer.java:45-78 | a statement list's success, stopping cursor and failure message depend only on the tokens and the cursor; from the same log it leaves the same log |
| ParserOutcome.RecoverAgree | Lab2/src/com/company/Parcer.java:63-76 | recovery reads only the cursor and the log: from equal ones it gives the same outcome, cursor and log |
| ParserOutcome.BlockAgree | Lab2/src/com/company/Parcer.java:84-86 | a block succeeds, stops and fails with the same message from the same cursor whatever the tree, and from the same log leaves the same log |
| ParserOutcome.WhileAgree | Lab2/src/com/company/Parcer.java:91-105 | a loop succeeds, stops and fails with the same message from the same cursor whatever the tree, and from the same log leaves the same log |
| ParserOutcome.WhileHeadAgree | Lab2/src/com/company/Parcer.java:91-99 | a loop head succeeds, stops and fails with the same message from the same cursor whatever the tree, and from the same log leaves the same log |
| ParserOutcome.IfAgree | Lab2/src/com/company/Parcer.java:108-135 | a branch succeeds, stops and fails with the same message from the same cursor whatever the tree, and from the same log leaves the same log |
| ParserOutcome.IfHeadAgree | Lab2/src/com/company/Parcer.java:108-116 | a branch head succeeds, stops and fails with the same message from the same cursor whatever the tree, and from the same log leaves the same log |
| ParserOutcome.ElseAgree | Lab2/src/com/company/Parcer.java:122-134 | the else part, whichever branch and condition ids it is given, succeeds, stops and fails with the same message from the same cursor whatever the tree, and from the same log leaves the same log |
| ParserOutcome.ConditionAgree | Lab2/src/com/company/Parcer.java:138-153 | a condition succeeds, stops and fails with the same message from the same cursor whatever the tree, and from the same log leaves the same log |
| ParserOutcome.SideAgree | Lab2/src/com/company/Parcer.java:142-150 | a condition side succeeds, stops and fails with the same message from the same cursor whatever the tree, and from the same log leaves the same log |
| ParserOutcome.CallStatementAgree | Lab2/src/com/company/Parcer.java:156-160 | a call statement succeeds, stops and fails with the same message from the same cursor whatever the tree, and from the same log leaves the same log |
| ParserOutcome.CallAgree | Lab2/src/com/company/Parcer.java:163-183 | a call succeeds, stops and fails with the same message from the same cursor whatever the tree, and from the same log leaves the same log |
| ParserOutcome.CallRestAgree | Lab2/src/com/company/Parcer.java:170-182 | the argument list of a call succeeds, stops and fails with the same message from the same cursor whatever the tree, and from the same log leaves the same log |
| ParserOutcome.ArgsAgree | Lab2/src/com/company/Parcer.java:170-179 | the argument loop succeeds, stops and fails with the same message from the same cursor whatever the tree, and from the same log leaves the same log |
| ParserOutcome.VarDefAgree | Lab2/src/com/company/Parcer.java:186-201 | a definition succeeds, stops and fails with the same message from the same cursor whatever the tree, and from the same log leaves the same log |
| ParserOutcome.VarDefRestAgree | Lab2/src/com/company/Parcer.java:193-200 | the optional initializer of a definition, whatever name it carries, succeeds, stops and fails with the same message from the same cursor whatever the tree, and from the same log leaves the same log |
| ParserOutcome.InitializerAgree | Lab2/src/com/company/Parcer.java:195-197 | an initializer, whatever name it carries, succeeds, stops and fails with the same message from the same cursor whatever the tree, and from the same log leaves the same log |
| ParserOutcome.VarAssignAgree | Lab2/src/com/company/Parcer.java:204-214 | an assignment succeeds, stops and fails with the same message from the same cursor whatever the tree, and from the same log leaves the same log |
| ParserOutcome.ValueAgree | Lab2/src/com/company/Parcer.java:217-244 | a value succeeds, stops and fails with the same message from the same cursor whatever the tree, and from the same log leaves the same log |
| ParserOutcome.TermAgree | Lab2/src/com/company/Parcer.java:219-237 | the first operand of a value succeeds, stops and fails with the same message from the same cursor whatever the tree, and from the same log leaves the same log |
| ParserOutcome.ValueTailAgree | Lab2/src/com/company/Parcer.java:239-243 | the optional operator tail succeeds, stops and fails with the same message from the same cursor whatever the tree, and from the same log leaves the same log |
| ParserOutcome.ParenthesizedAgree | Lab2/src/com/company/Parcer.java:219-225 | a parenthesised value succeeds, stops and fails with the same message from the same cursor whatever the tree, and from the same log leaves the same log |
| ParserOutcome.OperandAgree | Lab2/src/com/company/Parcer.java:226-237 | an operand, including its speculative call, succeeds, stops and fails with the same message from the same cursor whatever the tree, and from the same log leaves the same log |
| ParserOutcome.LineEndAgree | Lab2/src/com/company/Parcer.java:260-263 | a LINE_END statement succeeds, stops and fails with the same message from the same cursor whatever the tree, and from the same log leaves the same log |
| ParserRecovery.FailedAlternativesLeaveRecord | Lab2/src/com/company/Parcer.java:54-63 | when every alternative of a non-empty list fails, the cursor is unchanged and the log is non-empty, ending with a record at or after the cursor |
| ParserRecovery.StatementFailureIsLogged | Lab2/src/com/company/Parcer.java:63-74 | when all statement productions fail the log is never empty, so the generic-message branch is dead |
| ErrorLog.SortDesc | Lab2/src/com/company/Parcer.java:65 | the sorted log is a permutation of the log and is ordered by descending position |
| ErrorLog.FirstFurthest | Lab2/src/com/company/Parcer.java:65-67 | picks a record with the greatest position, and every earlier record has a strictly smaller one |
| ErrorLog.SortHeadIsFirstFurthest | Lab2/src/com/company/Parcer.java:65-67 | the head of the stable descending sort is the earliest-recorded failure among those with the greatest position, and no record lies beyond it |
| Parser.Recover | Lab2/src/com/company/Parcer.java:63-76 | recovery leaves the tree alone, moves the cursor strictly past where the iteration started, prints exactly one diagnostic, and can fail only with end-of-input at the end of the tokens |
| ParserRecovery.RecoverJumpsPastFurthest | Lab2/src/com/company/Parcer.java:63-76 | recovery succeeds exactly when the first furthest failure lies inside the input; then the cursor is one past it (past every recorded failure), the log is the sorted log, and the diagnostic carries that token's offset and that failure's message; otherwise it fails with end-of-input at the end of the tokens |
| Parser.ParseExpr | Lab2/src/com/company/Parcer.java:45-78 | the cursor never moves back; a BODY_CLOSE under the cursor ends the list at once, with the cursor unmoved and the log cleared; a success stops at the end of input or at an unconsumed BODY_CLOSE; a failure is always end-of-input at the end of the tokens; every error left in the log was recorded at or after the entry cursor, because each iteration clears the log |
| ParserFrames.ExprFrame | Lab2/src/com/company/Parcer.java:45-78 | a statement list only appends to the context it runs in, leaves all other existing nodes alone, and on success leaves the stack as it found it |
| Parser.Run | Lab2/src/com/company/Parcer.java:30-42 | a run that returns stops at the end of input or at a stray BODY_CLOSE; the only exception that escapes is end-of-input at the end of the tokens |
| ParserRecovery.RunClosesContexts | Lab2/src/com/company/Parcer.java:30-42 | a returning run's tree is a growth of the root-only tree, node 0 is still the root, and only the root is left open on the stack |
| ParserScenarios.TrailingIfFailsRun | Lab2/src/com/company/Parcer.java:63-69 | for the tokens of `if ( a < 1 ) { }` the run fails with end-of-input: the probe for ELSE is the furthest failure and recovery cannot read its token |
| ParserScenarios.TrailingIfBranchFails | Lab2/src/com/company/Parcer.java:108-122 | an `if` without `else` as the last tokens parses up to the end and then fails on the ELSE probe at the end of input |
| Parser.ParseBody | Lab2/src/com/company/Parcer.java:81-88 | the cursor never moves back, a success consumes input, and new log records lie at or after the entry cursor |
| Parser.ParseBlock | Lab2/src/com/company/Parcer.java:84-86 | the `BODY_OPEN expr BODY_CLOSE` sequence (also at lines 101-103, 118-120 and 127-129): the cursor never moves back, a success consumes input, and new log records lie at or after the entry cursor |
| ParserShapes.BlockFills | Lab2/src/com/company/Parcer.java:84-86 | a block parsed while a fresh, childless node is the current context makes that node's children exactly the ids that this block, parsed from that state, attached below the node |
| ParserShapes.BodyShape | Lab2/src/com/company/Parcer.java:81-88 | a nested block attaches exactly one BodyNode to the current context, and that node's children are exactly the ids attached by the block parsed from the state just after the node was pushed |
| Parser.ParseWhile | Lab2/src/com/company/Parcer.java:91-105 | the cursor never moves back, a success consumes input, and new log records lie at or after the entry cursor |
| Parser.WhileHead | Lab2/src/com/company/Parcer.java:91-99 | the loop up to its block: the cursor never moves back, a success consumes input, and new log records lie at or after the entry cursor |
| ParserShapes.WhileHeadShape | Lab2/src/com/company/Parcer.java:91-99 | the head attaches exactly the fresh WhileNode and leaves it as the current context, childless, with its condition field set to a condition node created after it |
| ParserShapes.WhileShape | Lab2/src/com/company/Parcer.java:91-105 | a loop attaches exactly one WhileNode whose condition field holds a condition node owned by it and created after the loop node, and whose children are exactly the ids attached by the block parsed from the state the loop's head leaves |
| ParserFrames.WhileFrame | Lab2/src/com/company/Parcer.java:91-105 | the loop only grows the tree below the current context and closes every context it opened |
| Parser.ParseIf | Lab2/src/com/company/Parcer.java:108-135 | the cursor never moves back, a success consumes input, and new log records lie at or after the entry cursor |
| Parser.IfHead | Lab2/src/com/company/Parcer.java:108-116 | the branch up to its then-block: the cursor never moves back, a success consumes input, and new log records lie at or after the entry cursor |
| ParserShapes.IfHeadShape | Lab2/src/com/company/Parcer.java:108-116 | the head attaches exactly the fresh BranchNode and leaves it as the current context, childless, with no else body and its condition field set to a condition node created after it |
| ParserShapes.IfShape | Lab2/src/com/company/Parcer.java:108-135 | a branch attaches exactly one BranchNode with an owned condition, whose children are exactly the ids attached by the then-block parsed from the state the head leaves; an else body, when present, is a BodyNode whose children are exactly the ids attached by the else-block parsed from the state just past ELSE |
| ParserShapes.IfAfterHead | Lab2/src/com/company/Parcer.java:118-135 | from the state the head leaves, the then-block fills the branch node and keeps its condition, and an else body, when present, is a BodyNode filled by the else-block |
| ParserShapes.ElseShape | Lab2/src/com/company/Parcer.java:122-134 | the branch gets an else body exactly when the token after the then-block is ELSE; the else body's children are exactly the ids attached by the block parsed from the state just past ELSE with the body opened; the condition and the branch's own children are left intact |
| Parser.OpenElse | Lab2/src/com/company/Parcer.java:124-125 | a fresh, childless BodyNode is appended and becomes the current context, the branch's else field points at it and the branch keeps its condition and children, and every other node is unchanged |
| ParserFrames.IfFrame | Lab2/src/com/company/Parcer.java:108-135 | the branch only grows the tree below the current context and closes every context it opened, including the else body |
| Parser.ParseCondition | Lab2/src/com/company/Parcer.java:138-153 | the cursor never moves back and a success consumes input |
| ParserShapes.ConditionShape | Lab2/src/com/company/Parcer.java:138-153 | the result is the newest node, a ConditionNode owning two side containers that each hold a flat value chain created after the condition started; its left side is the first node the condition created and its right side a later one; its operator is the text of the CONDITION_OP token that follows the left side; the current context's node is left exactly as it was, so a condition attaches nothing |
| ParserShapes.SideShape | Lab2/src/com/company/Parcer.java:142-150 | each side is a fresh container holding the flat chain of its value, and the current context's node is left exactly as it was |
| Parser.ParseCallStatement | Lab2/src/com/company/Parcer.java:156-160 | the cursor never moves back, a success consumes input, and new log records lie at or after the entry cursor |
| ParserShapes.CallStatementShape | Lab2/src/com/company/Parcer.java:156-160 | a call statement attaches exactly the CallNode named by its first token |
| Parser.ParseCall | Lab2/src/com/company/Parcer.java:163-183 | the cursor never moves back and a success consumes input |
| ParserShapes.CallShape | Lab2/src/com/company/Parcer.java:163-183 | a call attaches exactly one CallNode named by its first token, with at most one argument |
| ParserFrames.CallFrame | Lab2/src/com/company/Parcer.java:163-183 | a call, successful or not, only grows the tree below the current context, and on success closes the CallNode it opened |
| Parser.ParseArgs | Lab2/src/com/company/Parcer.java:170-179 | one argument and the loop test after it: the cursor never moves back, a success consumes input, and new log records lie at or after the entry cursor |
| ParserShapes.ArgsShape | Lab2/src/com/company/Parcer.java:170-179 | the argument loop that succeeds attaches exactly one ValueBody and stops at an existing token that is not a COMMA |
| ParserShapes.ArgsAtCommaFails | Lab2/src/com/company/Parcer.java:172-178 | an argument starting at a COMMA always fails, so the loop's repetition can never succeed |
| ParserScenarios.TwoArgumentCallFails | Lab2/src/com/company/Parcer.java:163-181 | `f ( 1 , 2 )` does not parse as a call |
| Parser.ParseVarDef | Lab2/src/com/company/Parcer.java:186-201 | the cursor never moves back, a success consumes input, and new log records lie at or after the entry cursor |
| ParserShapes.VarDefShape | Lab2/src/com/company/Parcer.java:186-201 | a definition attaches the VarDefineNode named by its two first tokens, followed, exactly when ASSIGN_OP comes next, by a sibling AssignNode holding the initial value as a flat chain |
| ParserShapes.VarDefHeader | Lab2/src/com/company/Parcer.java:188-191 | a definition succeeds only on VAR_TYPE NAME, and then continues with the VarDefineNode those two tokens name |
| ParserShapes.VarDefRestShape | Lab2/src/com/company/Parcer.java:193-200 | after the definition node, ASSIGN_OP decides whether one AssignNode holding the value is attached or nothing is |
| ParserFrames.VarDefFrame | Lab2/src/com/company/Parcer.java:186-201 | a definition only grows the tree below the current context and closes the AssignNode it opened |
| Parser.ParseVarAssign | Lab2/src/com/company/Parcer.java:204-214 | the cursor never moves back, a success consumes input, and new log records lie at or after the entry cursor |
| ParserShapes.VarAssignShape | Lab2/src/com/company/Parcer.java:204-214 | an assignment attaches exactly one AssignNode named by its first token, holding the value as a flat chain of nodes created after it |
| ParserShapes.InitializerShape | Lab2/src/com/company/Parcer.java:195-197 | the value is parsed into one fresh AssignNode that is closed again, its children a flat chain of nodes created after it |
| Parser.ParseValue | Lab2/src/com/company/Parcer.java:217-244 | the cursor never moves back, a success consumes input, and new log records lie at or after the entry cursor |
| ParserShapes.ValueShape | Lab2/src/com/company/Parcer.java:217-244 | a value attaches an odd-length flat chain to the current context: operands at even positions, MathOperationNodes at odd ones |
| ParserShapes.ValueTailShape | Lab2/src/com/company/Parcer.java:239-243 | the optional tail attaches nothing, or an operator followed by a flat chain |
| ParserShapes.ValueNeedsStart | Lab2/src/com/company/Parcer.java:217-237 | a value succeeds only when it starts at BRACED_OPEN, NAME or a literal |
| ParserFrames.ValueFrame | Lab2/src/com/company/Parcer.java:217-244 | a value only grows the tree below the current context and closes every container it opened |
| Parser.ParseOperand | Lab2/src/com/company/Parcer.java:226-237 | the operand branch of `value`: the cursor never moves back, a success consumes input, and new log records lie at or after the entry cursor |
| ParserShapes.OperandShape | Lab2/src/com/company/Parcer.java:226-237 | the operand attaches exactly one node: a variable name, a constant or a call |
| ParserShapes.NameOperandShape | Lab2/src/com/company/Parcer.java:228-235 | under a NAME, when the speculative call succeeds the operand is exactly one CallNode named by that token; otherwise it is exactly one VarNameNode named by that token, added after the rollback at the unmoved cursor |
| Parser.ParseParenthesized | Lab2/src/com/company/Parcer.java:219-225 | the parenthesised branch of `value`: the cursor never moves back, a success consumes input, and new log records lie at or after the entry cursor |
| ParserShapes.ParenthesizedShape | Lab2/src/com/company/Parcer.java:219-225 | a parenthesised value attaches exactly one ValueBody |
| Parser.ParseConstValue | Lab2/src/com/company/Parcer.java:247-258 | succeeds exactly on a DIGIT, DIGIT_NATURAL or BOOLEAN token, consuming it and attaching a ConstantNode with its text and type; otherwise fails with the literal message (end-of-input past the last token) and changes nothing |
| Parser.ParseLineEnd | Lab2/src/com/company/Parcer.java:260-263 | succeeds exactly on LINE_END, consuming only that token; otherwise fails at the unchanged state |

## Left out

- `Lab2/out/production/Translator/src/com/company/Lexeme.java` is not part of this model. It wraps a regular-expression library call, and the parser sees only a token's type, text and start offset.
- The `System.out.printf` diagnostics (lines 69 and 73) are a plain `diags` field of the state. Each printed line becomes `Diagnostic(offset, msg)`. The message texts are abstract `Msg` values, and the text of the offending token is not recorded.
- `javafx.util.Pair` and `java.util.Stack` are replaced by datatypes and sequences.
- The node classes, `Token` and `Terminals` are modelled by their tree-assembly shape only. Every node that is pushed is a container, so the `instanceof BodyNode` tests at lines 277 and 293 always hold and the casts at lines 342 and 347 never fail. Exceptions other than the parser's own (a failed cast, an out-of-memory error) are not modelled.
- Parser.Run: it models a first call on a fresh `Parcer`. The source's `run` resets the log and the stack but not `index` (lines 27 and 30-38), so a second call on the same object would start at the old cursor. The model always starts at index 0.
- The Java `int` cursor is unbounded here. A token list longer than 2^31 - 1 is out of scope.
- `step` (lines 335-338) is `ParseState.Advance`, and it has no row of its own.
- ErrorLog.SortDesc: its contract states a sorted permutation. Stability is proved only for the head of the sorted log (`ErrorLog.SortHeadIsFirstFurthest`). The head is the only record the parser reads.
- Parser.ParseConstValue: the source calls `check` three times and `current()` twice. All of them read the same token, so the model reads it once.
- Whole-tree invariants, such as "no node is attached twice" or "every node is reachable from the root", are not stated. The frame lemmas prove the local form that each production appends only below the context it starts in.

=== FILE: errorlog.dfy ===
/** The parser's error log: the failures recorded by speculative attempts,
    and the stable descending sort `expr` applies before picking the
    furthest-progress failure. */
module ErrorLog {
  import opened Tokens

  /** Why a production failed. The message texts themselves are not modelled. */
  datatype Msg =
    | Expected(kind: Terminal)  // a required token of this type was not found
    | EndOfInput                // the cursor ran past the last token
    | BadLiteral                // expected a number or a boolean literal
    | InvalidConstruct          // generic diagnostic when nothing was recorded

  /** One failure recorded by a speculative attempt: the cursor at the
      moment of failure, and the message. */
  datatype ErrorRecord = ErrorRecord(pos: nat, msg: Msg)

  /** One printed diagnostic: the source offset of the offending token. */
  datatype Diagnostic = Diagnostic(offset: nat, msg: Msg)

  predicate SortedDesc(errs: seq<ErrorRecord>) {
    forall i, j :: 0 <= i < j < |errs| ==> errs[j].pos <= errs[i].pos
  }

  /** Inserts `e`, which was recorded before every element of `sorted`, in
      front of the first element whose position does not exceed its own. */
  function Insert(e: ErrorRecord, sorted: seq<ErrorRecord>): (r: seq<ErrorRecord>)
    ensures |r| == |sorted| + 1
    ensures forall x :: x in r ==> x == e || x in sorted
    ensures SortedDesc(sorted) ==> SortedDesc(r)
    ensures r[0] == (if sorted == [] || sorted[0].pos <= e.pos then e else sorted[0])
  {
    if sorted == [] || sorted[0].pos <= e.pos then [e] + sorted
    else
      var rest := Insert(e, sorted[1..]);
      assert sorted == [sorted[0]] + sorted[1..];
      [sorted[0]] + rest
  }

  /** Insertion adds exactly `e` to the multiset of records. */
  lemma {:induction false} InsertPermutes(e: ErrorRecord, sorted: seq<ErrorRecord>)
    ensures multiset(Insert(e, sorted)) == multiset(sorted) + multiset{e}
  {
    if sorted != [] && e.pos < sorted[0].pos {
      InsertPermutes(e, sorted[1..]);
      assert sorted == [sorted[0]] + sorted[1..];
    }
  }

  /** Stable sort by descending position, as `errors.sort` with the
      comparator `-a.compareTo(b)` on the positions. */
  function SortDesc(errs: seq<ErrorRecord>): (r: seq<ErrorRecord>)
    ensures multiset(r) == multiset(errs)
    ensures |r| == |errs|
    ensures SortedDesc(r)
    ensures forall x :: x in r ==> x in errs
  {
    if errs == [] then []
    else
      assert errs == [errs[0]] + errs[1..];
      InsertPermutes(errs[0], SortDesc(errs[1..]));
      Insert(errs[0], SortDesc(errs[1..]))
  }

  /** Index of the first record whose position is the greatest: the record
      a stable descending sort puts first. */
  function FirstFurthest(errs: seq<ErrorRecord>): (k: nat)
    requires |errs| > 0
    ensures k < |errs|
    ensures forall j :: 0 <= j < |errs| ==> errs[j].pos <= errs[k].pos
    ensures forall j :: 0 <= j < k ==> errs[j].pos < errs[k].pos
  {
    if |errs| == 1 then 0
    else
      var k := FirstFurthest(errs[1..]);
      if errs[k + 1].pos <= errs[0].pos then 0 else k + 1
  }

  /** The head of the sorted log is the earliest-recorded failure among those
      with the greatest position. */
  lemma {:induction false} SortHeadIsFirstFurthest(errs: seq<ErrorRecord>)
    requires |errs| > 0
    ensures SortDesc(errs)[0] == errs[FirstFurthest(errs)]
    ensures forall e :: e in errs ==> e.pos <= SortDesc(errs)[0].pos
  {
    if |errs| > 1 {
      SortHeadIsFirstFurthest(errs[1..]);
    }
  }
}

=== FILE: frames.dfy ===
/** How the productions change the tree: each one grows the tree of the
    state it starts from as `Grows` allows, a success returns to the stack it
    started with, and a failed `tryStep` leaves the tree exactly as it found
    it. The lemmas follow the call structure of the parser and use its
    termination measure. */
module ParserFrames {
  import opened Tokens
  import opened ErrorLog
  import opened ParseState
  import opened Parser

  /** A production grew the tree, and a success popped what it pushed. */
  predicate Framed(s: Tree, r: Res<State>) {
    Grows(s, After(r).tree) && (r.Ok? ==> r.value.tree.stack == s.stack)
  }

  lemma FramedTrans(s: Tree, t: Tree, r: Res<State>)
    requires Grows(s, t) && t.stack == s.stack && Framed(t, r)
    ensures Framed(s, r)
  {
    GrowsTrans(s, t, After(r).tree);
  }

  lemma {:induction false} ExprFrame(tokens: seq<Token>, s: State)
    requires WellFormed(s.tree) && s.index <= |tokens|
    ensures Framed(s.tree, ParseExpr(tokens, s))
    decreases |tokens| - s.index, 6, 0
  {
    GrowsRefl(s.tree);
    if s.index < |tokens| {
      var s0 := s.(errors := []);
      if tokens[s0.index].kind != BodyClose {
        TryInOrderFrame(tokens, s0, StatementOrder);
        var (ok, s1) := TryInOrder(tokens, s0, StatementOrder);
        if ok {
          ExprFrame(tokens, s1);
          FramedTrans(s.tree, s1.tree, ParseExpr(tokens, s1));
        } else {
          var r2 := Recover(tokens, s0.index, s1);
          if r2.Ok? {
            ExprFrame(tokens, r2.value);
            FramedTrans(s.tree, r2.value.tree, ParseExpr(tokens, r2.value));
          }
        }
      }
    }
  }

  lemma {:induction false} TryInOrderFrame(tokens: seq<Token>, s: State, rules: seq<Rule>)
    requires WellFormed(s.tree) && s.index <= |tokens|
    ensures Grows(s.tree, TryInOrder(tokens, s, rules).1.tree)
    ensures TryInOrder(tokens, s, rules).1.tree.stack == s.tree.stack
    ensures !TryInOrder(tokens, s, rules).0 ==> TryInOrder(tokens, s, rules).1.tree.arena[..|s.tree.arena|] == s.tree.arena
    decreases |tokens| - s.index, 5, |rules|
  {
    if rules == [] {
      GrowsRefl(s.tree);
    } else {
      TryStepFrame(tokens, s, rules[0]);
      var (ok, t) := TryStep(tokens, s, rules[0]);
      if !ok {
        TryInOrderFrame(tokens, t, rules[1..]);
        var u := TryInOrder(tokens, t, rules[1..]).1;
        GrowsTrans(s.tree, t.tree, u.tree);
        if !TryInOrder(tokens, t, rules[1..]).0 {
          assert u.tree.arena[..|s.tree.arena|] == u.tree.arena[..|t.tree.arena|][..|s.tree.arena|];
        }
      }
    }
  }

  /** A successful `tryStep` keeps what the production built; a failed one
      restores the stack and every node that existed before. */
  lemma {:induction false} TryStepFrame(tokens: seq<Token>, s: State, rule: Rule)
    requires WellFormed(s.tree) && s.index <= |tokens|
    ensures Grows(s.tree, TryStep(tokens, s, rule).1.tree)
    ensures TryStep(tokens, s, rule).1.tree.stack == s.tree.stack
    ensures !TryStep(tokens, s, rule).0 ==> TryStep(tokens, s, rule).1.tree.arena[..|s.tree.arena|] == s.tree.arena
    decreases |tokens| - s.index, RuleRank(rule) + 2, 0
  {
    ApplyFrame(tokens, s, rule);
    match Apply(tokens, s, rule)
    case Ok(t) =>
    case Fail(t, msg) => RestoreUndoes(s.tree, t.tree);
  }

  lemma {:induction false} ApplyFrame(tokens: seq<Token>, s: State, rule: Rule)
    requires WellFormed(s.tree) && s.index <= |tokens|
    ensures Framed(s.tree, Apply(tokens, s, rule))
    decreases |tokens| - s.index, RuleRank(rule) + 1, 0
  {
    match rule
    case VarDefRule => VarDefFrame(tokens, s);
    case VarAssignRule => VarAssignFrame(tokens, s);
    case IfRule => IfFrame(tokens, s);
    case WhileRule => WhileFrame(tokens, s);
    case CallStatementRule => CallStatementFrame(tokens, s);
    case BodyRule => BodyFrame(tokens, s);
    case LineEndRule => GrowsRefl(s.tree);
    case CallRule => CallFrame(tokens, s);
  }

  lemma {:induction false} BlockFrame(tokens: seq<Token>, s: State)
    requires WellFormed(s.tree) && s.index <= |tokens|
    ensures Framed(s.tree, ParseBlock(tokens, s))
    decreases |tokens| - s.index, 1, 0
  {
    GrowsRefl(s.tree);
    var p1 := CheckAndStep(tokens, s, BodyOpen);
    if p1.Ok? {
      ExprFrame(tokens, p1.value.1);
    }
  }

  lemma {:induction false} BodyFrame(tokens: seq<Token>, s: State)
    requires WellFormed(s.tree) && s.index <= |tokens|
    ensures Framed(s.tree, ParseBody(tokens, s))
    decreases |tokens| - s.index, 2, 0
  {
    var s1 := s.(tree := AddAndPush(s.tree, BodyNode));
    AddAndPushGrows(s.tree, BodyNode);
    BlockFrame(tokens, s1);
    var r2 := ParseBlock(tokens, s1);
    GrowsTrans(s.tree, s1.tree, After(r2).tree);
    if r2.Ok? {
      PopGrows(s.tree, r2.value.tree);
    }
  }

  lemma {:induction false} WhileFrame(tokens: seq<Token>, s: State)
    requires WellFormed(s.tree) && s.index <= |tokens|
    ensures Framed(s.tree, ParseWhile(tokens, s))
    decreases |tokens| - s.index, 1, 0
  {
    var w := |s.tree.arena|;
    var s1 := s.(tree := AddAndPush(s.tree, WhileNode(None)));
    AddAndPushGrows(s.tree, WhileNode(None));
    var p2 := CheckAndStep(tokens, s1, WhileOp);
    if p2.Ok? {
      var p3 := CheckAndStep(tokens, p2.value.1, BracedOpen);
      if p3.Ok? {
        var s3 := p3.value.1;
        ConditionFrame(tokens, s3);
        var c := ParseCondition(tokens, s3);
        GrowsTrans(s.tree, s3.tree, AfterPair(c).tree);
        if c.Ok? {
          var t4 := SetKind(c.value.1.tree, w, WhileNode(Some(c.value.0)));
          FreshEdit(s.tree, c.value.1.tree, t4);
          var p5 := CheckAndStep(tokens, c.value.1.(tree := t4), BracedClose);
          if p5.Ok? {
            var s5 := p5.value.1;
            assert WhileHead(tokens, s) == Ok((c.value.0, s5));
            BlockFrame(tokens, s5);
            var r6 := ParseBlock(tokens, s5);
            GrowsTrans(s.tree, s5.tree, After(r6).tree);
            if r6.Ok? {
              PopGrows(s.tree, r6.value.tree);
            }
          }
        }
      }
    }
  }

  lemma {:induction false} IfFrame(tokens: seq<Token>, s: State)
    requires WellFormed(s.tree) && s.index <= |tokens|
    ensures Framed(s.tree, ParseIf(tokens, s))
    decreases |tokens| - s.index, 1, 0
  {
    var b := |s.tree.arena|;
    var s1 := s.(tree := AddAndPush(s.tree, BranchNode(None, None)));
    AddAndPushGrows(s.tree, BranchNode(None, None));
    var p2 := CheckAndStep(tokens, s1, IfOp);
    if p2.Ok? {
      var p3 := CheckAndStep(tokens, p2.value.1, BracedOpen);
      if p3.Ok? {
        var s3 := p3.value.1;
        ConditionFrame(tokens, s3);
        var c := ParseCondition(tokens, s3);
        GrowsTrans(s.tree, s3.tree, AfterPair(c).tree);
        if c.Ok? {
          var t4 := SetKind(c.value.1.tree, b, BranchNode(Some(c.value.0), None));
          FreshEdit(s.tree, c.value.1.tree, t4);
          var p5 := CheckAndStep(tokens, c.value.1.(tree := t4), BracedClose);
          if p5.Ok? {
            var s5 := p5.value.1;
            assert IfHead(tokens, s) == Ok((c.value.0, s5));
            BlockFrame(tokens, s5);
            var r6 := ParseBlock(tokens, s5);
            GrowsTrans(s.tree, s5.tree, After(r6).tree);
            if r6.Ok? {
              ElseFrame(tokens, s.tree, r6.value, b, c.value.0);
            }
          }
        }
      }
    }
  }

  lemma {:induction false} ElseFrame(tokens: seq<Token>, s0: Tree, s: State, b: nat, cond: nat)
    requires Grows(s0, s.tree) && s.tree.stack == s0.stack + [b] && |s0.arena| <= b
    requires s.index <= |tokens|
    ensures Framed(s0, ParseElse(tokens, s, b, cond))
    ensures Attached(s0, After(ParseElse(tokens, s, b, cond)).tree) == Attached(s0, s.tree)
    decreases |tokens| - s.index, 2, 0
  {
    var q := StepIf(tokens, s, Else);
    if q.Ok? && q.value.0 {
      var s1 := q.value.1.(tree := OpenElse(q.value.1.tree, b, cond));
      FreshEdit(s0, s.tree, s1.tree);
      BlockFrame(tokens, s1);
      var r2 := ParseBlock(tokens, s1);
      AttachedNested(s0, s1.tree, After(r2).tree);
      if r2.Ok? {
        PopGrows(s0, r2.value.tree);
        PopGrows(s0, Pop(r2.value.tree));
      }
    } else if q.Ok? {
      PopGrows(s0, s.tree);
    }
  }

  lemma {:induction false} ConditionFrame(tokens: seq<Token>, s: State)
    requires WellFormed(s.tree) && s.index <= |tokens|
    ensures Grows(s.tree, AfterPair(ParseCondition(tokens, s)).tree)
    ensures ParseCondition(tokens, s).Ok? ==> ParseCondition(tokens, s).value.1.tree.stack == s.tree.stack
    decreases |tokens| - s.index, 8, 0
  {
    SideFrame(tokens, s);
    var left := ParseSide(tokens, s);
    if left.Ok? {
      var op := CheckAndStep(tokens, left.value.1, ConditionOp);
      if op.Ok? {
        var s2 := op.value.1;
        SideFrame(tokens, s2);
        var right := ParseSide(tokens, s2);
        GrowsTrans(s.tree, s2.tree, AfterPair(right).tree);
        if right.Ok? {
          var t := right.value.1.tree;
          FreshEdit(s.tree, t, Alloc(t, ConditionNode(left.value.0, op.value.0, right.value.0)));
        }
      }
    }
  }

  lemma {:induction false} SideFrame(tokens: seq<Token>, s: State)
    requires WellFormed(s.tree) && s.index <= |tokens|
    ensures Grows(s.tree, AfterPair(ParseSide(tokens, s)).tree)
    ensures ParseSide(tokens, s).Ok? ==> ParseSide(tokens, s).value.1.tree.stack == s.tree.stack
    decreases |tokens| - s.index, 7, 0
  {
    GrowsRefl(s.tree);
    var s1 := s.(tree := Push(Alloc(s.tree, ConditionSide), |s.tree.arena|));
    FreshEdit(s.tree, s.tree, s1.tree);
    ValueFrame(tokens, s1);
    var r2 := ParseValue(tokens, s1);
    GrowsTrans(s.tree, s1.tree, After(r2).tree);
    if r2.Ok? {
      PopGrows(s.tree, r2.value.tree);
    }
  }

  lemma {:induction false} CallStatementFrame(tokens: seq<Token>, s: State)
    requires WellFormed(s.tree) && s.index <= |tokens|
    ensures Framed(s.tree, ParseCallStatement(tokens, s))
    decreases |tokens| - s.index, 2, 0
  {
    CallFrame(tokens, s);
  }

  lemma {:induction false} CallFrame(tokens: seq<Token>, s: State)
    requires WellFormed(s.tree) && s.index <= |tokens|
    ensures Framed(s.tree, ParseCall(tokens, s))
    decreases |tokens| - s.index, 1, 0
  {
    GrowsRefl(s.tree);
    var p1 := CheckAndStep(tokens, s, Name);
    if p1.Ok? {
      var p2 := CheckAndStep(tokens, p1.value.1, BracedOpen);
      if p2.Ok? {
        var s2 := p2.value.1;
        var s3 := s2.(tree := AddAndPush(s2.tree, CallNode(p1.value.0)));
        AddAndPushGrows(s2.tree, CallNode(p1.value.0));
        CallRestFrame(tokens, s.tree, s3);
      }
    }
  }

  lemma {:induction false} CallRestFrame(tokens: seq<Token>, s0: Tree, s: State)
    requires Grows(s0, s.tree) && |s.tree.stack| == |s0.stack| + 1 && |s0.arena| <= Top(s.tree)
    requires s.index <= |tokens|
    ensures Framed(s0, ParseCallRest(tokens, s))
    ensures Attached(s0, After(ParseCallRest(tokens, s)).tree) == Attached(s0, s.tree)
    decreases |tokens| - s.index, 8, 0
  {
    GrowsRefl(s.tree);
    var closed := Check(tokens, s, BracedClose);
    if closed.Ok? {
      if !closed.value {
        ArgsFrame(tokens, s);
      }
      var r1 := if closed.value then Ok(s) else ParseArgs(tokens, s);
      AttachedNested(s0, s.tree, After(r1).tree);
      if r1.Ok? {
        var p2 := CheckAndStep(tokens, r1.value, BracedClose);
        if p2.Ok? {
          PopGrows(s0, p2.value.1.tree);
        }
      }
    }
  }

  lemma {:induction false} ArgsFrame(tokens: seq<Token>, s: State)
    requires WellFormed(s.tree) && s.index <= |tokens|
    ensures Framed(s.tree, ParseArgs(tokens, s))
    decreases |tokens| - s.index, 7, 0
  {
    var s1 := s.(tree := AddAndPush(s.tree, ValueBody));
    AddAndPushGrows(s.tree, ValueBody);
    ValueFrame(tokens, s1);
    var r2 := ParseValue(tokens, s1);
    GrowsTrans(s.tree, s1.tree, After(r2).tree);
    if r2.Ok? {
      PopGrows(s.tree, r2.value.tree);
      var s3 := r2.value.(tree := Pop(r2.value.tree));
      var more := Check(tokens, s3, Comma);
      if more.Ok? && more.value {
        ArgsFrame(tokens, s3);
        GrowsTrans(s.tree, s3.tree, After(ParseArgs(tokens, s3)).tree);
      }
    }
  }

  lemma {:induction false} VarDefFrame(tokens: seq<Token>, s: State)
    requires WellFormed(s.tree) && s.index <= |tokens|
    ensures Framed(s.tree, ParseVarDef(tokens, s))
    decreases |tokens| - s.index, 1, 0
  {
    GrowsRefl(s.tree);
    var p1 := CheckAndStep(tokens, s, VarType);
    if p1.Ok? {
      var p2 := CheckAndStep(tokens, p1.value.1, Name);
      if p2.Ok? {
        var s2 := p2.value.1;
        var kind := VarDefineNode(p1.value.0, p2.value.0);
        var s3 := s2.(tree := AddNode(s2.tree, kind));
        AddNodeGrows(s2.tree, kind);
        VarDefRestFrame(tokens, s3, p2.value.0);
        AttachedTrans(s2.tree, s3.tree, After(ParseVarDefRest(tokens, s3, p2.value.0)).tree);
      }
    }
  }

  lemma {:induction false} VarDefRestFrame(tokens: seq<Token>, s: State, name: string)
    requires WellFormed(s.tree) && s.index <= |tokens|
    ensures Framed(s.tree, ParseVarDefRest(tokens, s, name))
    decreases |tokens| - s.index, 1, 0
  {
    GrowsRefl(s.tree);
    var q := StepIf(tokens, s, AssignOp);
    if q.Ok? && q.value.0 {
      InitializerFrame(tokens, q.value.1, name);
    }
  }

  lemma {:induction false} InitializerFrame(tokens: seq<Token>, s: State, name: string)
    requires WellFormed(s.tree) && s.index <= |tokens|
    ensures Framed(s.tree, ParseInitializer(tokens, s, name))
    decreases |tokens| - s.index, 7, 0
  {
    var s1 := s.(tree := AddAndPush(s.tree, AssignNode(name)));
    AddAndPushGrows(s.tree, AssignNode(name));
    ValueFrame(tokens, s1);
    var r2 := ParseValue(tokens, s1);
    GrowsTrans(s.tree, s1.tree, After(r2).tree);
    if r2.Ok? {
      PopGrows(s.tree, r2.value.tree);
    }
  }

  lemma {:induction false} VarAssignFrame(tokens: seq<Token>, s: State)
    requires WellFormed(s.tree) && s.index <= |tokens|
    ensures Framed(s.tree, ParseVarAssign(tokens, s))
    decreases |tokens| - s.index, 1, 0
  {
    GrowsRefl(s.tree);
    var p1 := CheckAndStep(tokens, s, Name);
    if p1.Ok? {
      var p2 := CheckAndStep(tokens, p1.value.1, AssignOp);
      if p2.Ok? {
        InitializerFrame(tokens, p2.value.1, p1.value.0);
      }
    }
  }

  lemma {:induction false} ValueFrame(tokens: seq<Token>, s: State)
    requires WellFormed(s.tree) && s.index <= |tokens|
    ensures Framed(s.tree, ParseValue(tokens, s))
    decreases |tokens| - s.index, 6, 0
  {
    TermFrame(tokens, s);
    var r1 := ParseTerm(tokens, s);
    if r1.Ok? {
      ValueTailFrame(tokens, r1.value);
      GrowsTrans(s.tree, r1.value.tree, After(ParseValueTail(tokens, r1.value)).tree);
    }
  }

  lemma {:induction false} TermFrame(tokens: seq<Token>, s: State)
    requires WellFormed(s.tree) && s.index <= |tokens|
    ensures Framed(s.tree, ParseTerm(tokens, s))
    decreases |tokens| - s.index, 5, 0
  {
    GrowsRefl(s.tree);
    var open := StepIf(tokens, s, BracedOpen);
    if open.Ok? {
      if open.value.0 {
        ParenthesizedFrame(tokens, open.value.1);
      } else {
        OperandFrame(tokens, s);
      }
    }
  }

  lemma {:induction false} ValueTailFrame(tokens: seq<Token>, s: State)
    requires WellFormed(s.tree) && s.index <= |tokens|
    ensures Framed(s.tree, ParseValueTail(tokens, s))
    decreases |tokens| - s.index, 1, 0
  {
    GrowsRefl(s.tree);
    var op := StepIf(tokens, s, MathOp);
    if op.Ok? && op.value.0 {
      var kind := MathOperationNode(tokens[s.index].text);
      var s1 := op.value.1.(tree := AddNode(s.tree, kind));
      AddNodeGrows(s.tree, kind);
      ValueFrame(tokens, s1);
      GrowsTrans(s.tree, s1.tree, After(ParseValue(tokens, s1)).tree);
    }
  }

  lemma {:induction false} ParenthesizedFrame(tokens: seq<Token>, s: State)
    requires WellFormed(s.tree) && s.index <= |tokens|
    ensures Framed(s.tree, ParseParenthesized(tokens, s))
    decreases |tokens| - s.index, 7, 0
  {
    var s1 := s.(tree := AddAndPush(s.tree, ValueBody));
    AddAndPushGrows(s.tree, ValueBody);
    ValueFrame(tokens, s1);
    var r2 := ParseValue(tokens, s1);
    GrowsTrans(s.tree, s1.tree, After(r2).tree);
    if r2.Ok? {
      PopGrows(s.tree, r2.value.tree);
    }
  }

  lemma {:induction false} OperandFrame(tokens: seq<Token>, s: State)
    requires WellFormed(s.tree) && s.index <= |tokens|
    ensures Framed(s.tree, ParseOperand(tokens, s))
    decreases |tokens| - s.index, 4, 0
  {
    GrowsRefl(s.tree);
    var isName := Check(tokens, s, Name);
    if isName.Ok? {
      if isName.value {
        TryStepFrame(tokens, s, CallRule);
        var (called, t) := TryStep(tokens, s, CallRule);
        if !called {
          var kind := VarNameNode(tokens[t.index].text);
          AddNodeGrows(t.tree, kind);
          GrowsTrans(s.tree, t.tree, AddNode(t.tree, kind));
        }
      } else {
        AddNodeGrows(s.tree, ConstantNode(tokens[s.index].text, tokens[s.index].kind));
      }
    }
  }
}

=== FILE: outcome.dfy ===
/** What a production's outcome depends on. Whether it succeeds, where it
    leaves the cursor and which failure it raises are fixed by the tokens and
    the cursor it starts at: the tree is only ever written, never read to
    decide anything, and each iteration of `expr` starts from an empty log.
    Two runs from the same cursor with the same log also leave the same log.
    The lemmas follow the call structure of the parser and use its
    termination measure. */
module ParserOutcome {
  import opened Tokens
  import opened ErrorLog
  import opened ParseState
  import opened Parser

  /** Two results agree on success, on where the cursor stopped and on the
      failure message; and, when they started from the same log, they end
      with the same log. Trees and diagnostics may differ. */
  predicate Agree(s: State, s': State, r: Res<State>, r': Res<State>) {
    && r.Ok? == r'.Ok?
    && After(r).index == After(r').index
    && (r.Fail? && r'.Fail? ==> r.msg == r'.msg)
    && (s.errors == s'.errors ==> After(r).errors == After(r').errors)
  }

  /** `Agree` for the productions that also return a node id. */
  predicate AgreePair<T, U>(s: State, s': State, r: Res<(T, State)>, r': Res<(U, State)>) {
    && r.Ok? == r'.Ok?
    && AfterPair(r).index == AfterPair(r').index
    && (r.Fail? && r'.Fail? ==> r.msg == r'.msg)
    && (s.errors == s'.errors ==> AfterPair(r).errors == AfterPair(r').errors)
  }

  /** `Agree` for the speculative steps, which answer with a flag. */
  predicate AgreeStep(s: State, s': State, r: (bool, State), r': (bool, State)) {
    && r.0 == r'.0
    && r.1.index == r'.1.index
    && (s.errors == s'.errors ==> r.1.errors == r'.1.errors)
  }

  // ---------------------------------------------------------------------
  // The statement loop and the speculative steps

  lemma {:induction false} ExprAgree(tokens: seq<Token>, s: State, s': State)
    requires s.index == s'.index <= |tokens|
    ensures Agree(s, s', ParseExpr(tokens, s), ParseExpr(tokens, s'))
    decreases |tokens| - s.index, 6, 0
  {
    if s.index < |tokens| && tokens[s.index].kind != BodyClose {
      var s0 := s.(errors := []);
      var s0' := s'.(errors := []);
      TryInOrderAgree(tokens, s0, s0', StatementOrder);
      var (ok, s1) := TryInOrder(tokens, s0, StatementOrder);
      var (ok', s1') := TryInOrder(tokens, s0', StatementOrder);
      if ok {
        ExprAgree(tokens, s1, s1');
      } else {
        RecoverAgree(tokens, s0.index, s1, s1');
        var r2 := Recover(tokens, s0.index, s1);
        var r2' := Recover(tokens, s0.index, s1');
        if r2.Ok? {
          ExprAgree(tokens, r2.value, r2'.value);
        }
      }
    }
  }

  /** Recovery reads only the cursor and the log. */
  lemma RecoverAgree(tokens: seq<Token>, from: nat, s: State, s': State)
    requires from < |tokens| && s.index == s'.index == from && s.errors == s'.errors
    requires forall e :: e in s.errors ==> from <= e.pos <= |tokens|
    ensures Agree(s, s', Recover(tokens, from, s), Recover(tokens, from, s'))
  {
  }

  lemma {:induction false} TryInOrderAgree(tokens: seq<Token>, s: State, s': State, rules: seq<Rule>)
    requires s.index == s'.index <= |tokens|
    ensures AgreeStep(s, s', TryInOrder(tokens, s, rules), TryInOrder(tokens, s', rules))
    decreases |tokens| - s.index, 5, |rules|
  {
    if rules != [] {
      TryStepAgree(tokens, s, s', rules[0]);
      var (ok, t) := TryStep(tokens, s, rules[0]);
      var (ok', t') := TryStep(tokens, s', rules[0]);
      if !ok {
        TryInOrderAgree(tokens, t, t', rules[1..]);
      }
    }
  }

  lemma {:induction false} TryStepAgree(tokens: seq<Token>, s: State, s': State, rule: Rule)
    requires s.index == s'.index <= |tokens|
    ensures AgreeStep(s, s', TryStep(tokens, s, rule), TryStep(tokens, s', rule))
    decreases |tokens| - s.index, RuleRank(rule) + 2, 0
  {
    ApplyAgree(tokens, s, s', rule);
  }

  /** Whether a production succeeds, where it stops and how it fails depend
      only on the tokens and the cursor it starts at. */
  lemma {:induction false} ApplyAgree(tokens: seq<Token>, s: State, s': State, rule: Rule)
    requires s.index == s'.index <= |tokens|
    ensures Agree(s, s', Apply(tokens, s, rule), Apply(tokens, s', rule))
    decreases |tokens| - s.index, RuleRank(rule) + 1, 0
  {
    match rule
    case VarDefRule => VarDefAgree(tokens, s, s');
    case VarAssignRule => VarAssignAgree(tokens, s, s');
    case IfRule => IfAgree(tokens, s, s');
    case WhileRule => WhileAgree(tokens, s, s');
    case CallStatementRule => CallStatementAgree(tokens, s, s');
    case BodyRule => BlockAgree(tokens, s.(tree := AddAndPush(s.tree, BodyNode)), s'.(tree := AddAndPush(s'.tree, BodyNode)));
    case LineEndRule => LineEndAgree(tokens, s, s');
    case CallRule => CallAgree(tokens, s, s');
  }

  lemma LineEndAgree(tokens: seq<Token>, s: State, s': State)
    requires s.index == s'.index <= |tokens|
    ensures Agree(s, s', ParseLineEnd(tokens, s), ParseLineEnd(tokens, s'))
  {
    var p := CheckAndStep(tokens, s, LineEnd);
    var p' := CheckAndStep(tokens, s', LineEnd);
  }

  // ---------------------------------------------------------------------
  // Statements

  lemma {:induction false} BlockAgree(tokens: seq<Token>, s: State, s': State)
    requires s.index == s'.index <= |tokens|
    ensures Agree(s, s', ParseBlock(tokens, s), ParseBlock(tokens, s'))
    decreases |tokens| - s.index, 1, 0
  {
    var p1 := CheckAndStep(tokens, s, BodyOpen);
    var p1' := CheckAndStep(tokens, s', BodyOpen);
    if p1.Ok? {
      ExprAgree(tokens, p1.value.1, p1'.value.1);
    }
  }

  lemma {:induction false} WhileAgree(tokens: seq<Token>, s: State, s': State)
    requires s.index == s'.index <= |tokens|
    ensures Agree(s, s', ParseWhile(tokens, s), ParseWhile(tokens, s'))
    decreases |tokens| - s.index, 1, 0
  {
    WhileHeadAgree(tokens, s, s');
    var h := WhileHead(tokens, s);
    var h' := WhileHead(tokens, s');
    if h.Ok? {
      BlockAgree(tokens, h.value.1, h'.value.1);
    }
  }

  lemma {:induction false} WhileHeadAgree(tokens: seq<Token>, s: State, s': State)
    requires s.index == s'.index <= |tokens|
    ensures AgreePair(s, s', WhileHead(tokens, s), WhileHead(tokens, s'))
    decreases |tokens| - s.index, 0, 0
  {
    var p2 := CheckAndStep(tokens, s.(tree := AddAndPush(s.tree, WhileNode(None))), WhileOp);
    var p2' := CheckAndStep(tokens, s'.(tree := AddAndPush(s'.tree, WhileNode(None))), WhileOp);
    if p2.Fail? {
      assert WhileHead(tokens, s) == Fail(p2.st, p2.msg);
      assert WhileHead(tokens, s') == Fail(p2'.st, p2'.msg);
      return;
    }
    var p3 := CheckAndStep(tokens, p2.value.1, BracedOpen);
    var p3' := CheckAndStep(tokens, p2'.value.1, BracedOpen);
    if p3.Fail? {
      assert WhileHead(tokens, s) == Fail(p3.st, p3.msg);
      assert WhileHead(tokens, s') == Fail(p3'.st, p3'.msg);
      return;
    }
    ConditionAgree(tokens, p3.value.1, p3'.value.1);
    var c := ParseCondition(tokens, p3.value.1);
    var c' := ParseCondition(tokens, p3'.value.1);
    if c.Fail? {
      assert WhileHead(tokens, s) == Fail(c.st, c.msg);
      assert WhileHead(tokens, s') == Fail(c'.st, c'.msg);
      return;
    }
    var s4 := c.value.1.(tree := SetKind(c.value.1.tree, |s.tree.arena|, WhileNode(Some(c.value.0))));
    var s4' := c'.value.1.(tree := SetKind(c'.value.1.tree, |s'.tree.arena|, WhileNode(Some(c'.value.0))));
    var p5 := CheckAndStep(tokens, s4, BracedClose);
    var p5' := CheckAndStep(tokens, s4', BracedClose);
    if p5.Fail? {
      assert WhileHead(tokens, s) == Fail(p5.st, p5.msg);
      assert WhileHead(tokens, s') == Fail(p5'.st, p5'.msg);
    } else {
      assert WhileHead(tokens, s) == Ok((c.value.0, p5.value.1));
      assert WhileHead(tokens, s') == Ok((c'.value.0, p5'.value.1));
    }
  }

  lemma {:induction false} IfAgree(tokens: seq<Token>, s: State, s': State)
    requires s.index == s'.index <= |tokens|
    ensures Agree(s, s', ParseIf(tokens, s), ParseIf(tokens, s'))
    decreases |tokens| - s.index, 1, 0
  {
    IfHeadAgree(tokens, s, s');
    var h := IfHead(tokens, s);
    var h' := IfHead(tokens, s');
    if h.Ok? {
      BlockAgree(tokens, h.value.1, h'.value.1);
      var r6 := ParseBlock(tokens, h.value.1);
      var r6' := ParseBlock(tokens, h'.value.1);
      if r6.Ok? {
        ElseAgree(tokens, r6.value, r6'.value, |s.tree.arena|, h.value.0, |s'.tree.arena|, h'.value.0);
      }
    }
  }

  lemma {:induction false} IfHeadAgree(tokens: seq<Token>, s: State, s': State)
    requires s.index == s'.index <= |tokens|
    ensures AgreePair(s, s', IfHead(tokens, s), IfHead(tokens, s'))
    decreases |tokens| - s.index, 0, 0
  {
    var p2 := CheckAndStep(tokens, s.(tree := AddAndPush(s.tree, BranchNode(None, None))), IfOp);
    var p2' := CheckAndStep(tokens, s'.(tree := AddAndPush(s'.tree, BranchNode(None, None))), IfOp);
    if p2.Fail? {
      assert IfHead(tokens, s) == Fail(p2.st, p2.msg);
      assert IfHead(tokens, s') == Fail(p2'.st, p2'.msg);
      return;
    }
    var p3 := CheckAndStep(tokens, p2.value.1, BracedOpen);
    var p3' := CheckAndStep(tokens, p2'.value.1, BracedOpen);
    if p3.Fail? {
      assert IfHead(tokens, s) == Fail(p3.st, p3.msg);
      assert IfHead(tokens, s') == Fail(p3'.st, p3'.msg);
      return;
    }
    ConditionAgree(tokens, p3.value.1, p3'.value.1);
    var c := ParseCondition(tokens, p3.value.1);
    var c' := ParseCondition(tokens, p3'.value.1);
    if c.Fail? {
      assert IfHead(tokens, s) == Fail(c.st, c.msg);
      assert IfHead(tokens, s') == Fail(c'.st, c'.msg);
      return;
    }
    var s4 := c.value.1.(tree := SetKind(c.value.1.tree, |s.tree.arena|, BranchNode(Some(c.value.0), None)));
    var s4' := c'.value.1.(tree := SetKind(c'.value.1.tree, |s'.tree.arena|, BranchNode(Some(c'.value.0), None)));
    var p5 := CheckAndStep(tokens, s4, BracedClose);
    var p5' := CheckAndStep(tokens, s4', BracedClose);
    if p5.Fail? {
      assert IfHead(tokens, s) == Fail(p5.st, p5.msg);
      assert IfHead(tokens, s') == Fail(p5'.st, p5'.msg);
    } else {
      assert IfHead(tokens, s) == Ok((c.value.0, p5.value.1));
      assert IfHead(tokens, s') == Ok((c'.value.0, p5'.value.1));
    }
  }

  /** The branch and condition ids only name nodes, so they may differ. */
  lemma {:induction false} ElseAgree(tokens: seq<Token>, s: State, s': State, b: nat, cond: nat, b': nat, cond': nat)
    requires s.index == s'.index <= |tokens|
    ensures Agree(s, s', ParseElse(tokens, s, b, cond), ParseElse(tokens, s', b', cond'))
    decreases |tokens| - s.index, 2, 0
  {
    var q := StepIf(tokens, s, Else);
    var q' := StepIf(tokens, s', Else);
    if q.Ok? && q.value.0 {
      BlockAgree(tokens, q.value.1.(tree := OpenElse(q.value.1.tree, b, cond)),
                 q'.value.1.(tree := OpenElse(q'.value.1.tree, b', cond')));
    }
  }

  lemma {:induction false} ConditionAgree(tokens: seq<Token>, s: State, s': State)
    requires s.index == s'.index <= |tokens|
    ensures AgreePair(s, s', ParseCondition(tokens, s), ParseCondition(tokens, s'))
    decreases |tokens| - s.index, 8, 0
  {
    SideAgree(tokens, s, s');
    var left := ParseSide(tokens, s);
    var left' := ParseSide(tokens, s');
    if left.Ok? {
      var op := CheckAndStep(tokens, left.value.1, ConditionOp);
      var op' := CheckAndStep(tokens, left'.value.1, ConditionOp);
      if op.Ok? {
        SideAgree(tokens, op.value.1, op'.value.1);
      }
    }
  }

  lemma {:induction false} SideAgree(tokens: seq<Token>, s: State, s': State)
    requires s.index == s'.index <= |tokens|
    ensures AgreePair(s, s', ParseSide(tokens, s), ParseSide(tokens, s'))
    decreases |tokens| - s.index, 7, 0
  {
    ValueAgree(tokens, s.(tree := Push(Alloc(s.tree, ConditionSide), |s.tree.arena|)),
               s'.(tree := Push(Alloc(s'.tree, ConditionSide), |s'.tree.arena|)));
  }

  lemma {:induction false} CallStatementAgree(tokens: seq<Token>, s: State, s': State)
    requires s.index == s'.index <= |tokens|
    ensures Agree(s, s', ParseCallStatement(tokens, s), ParseCallStatement(tokens, s'))
    decreases |tokens| - s.index, 2, 0
  {
    CallAgree(tokens, s, s');
  }

  lemma {:induction false} CallAgree(tokens: seq<Token>, s: State, s': State)
    requires s.index == s'.index <= |tokens|
    ensures Agree(s, s', ParseCall(tokens, s), ParseCall(tokens, s'))
    decreases |tokens| - s.index, 1, 0
  {
    var p1 := CheckAndStep(tokens, s, Name);
    var p1' := CheckAndStep(tokens, s', Name);
    if p1.Fail? {
      assert ParseCall(tokens, s) == Fail(p1.st, p1.msg);
      assert ParseCall(tokens, s') == Fail(p1'.st, p1'.msg);
      return;
    }
    var p2 := CheckAndStep(tokens, p1.value.1, BracedOpen);
    var p2' := CheckAndStep(tokens, p1'.value.1, BracedOpen);
    if p2.Fail? {
      assert ParseCall(tokens, s) == Fail(p2.st, p2.msg);
      assert ParseCall(tokens, s') == Fail(p2'.st, p2'.msg);
      return;
    }
    var s3 := p2.value.1.(tree := AddAndPush(p2.value.1.tree, CallNode(p1.value.0)));
    var s3' := p2'.value.1.(tree := AddAndPush(p2'.value.1.tree, CallNode(p1'.value.0)));
    assert ParseCall(tokens, s) == ParseCallRest(tokens, s3);
    assert ParseCall(tokens, s') == ParseCallRest(tokens, s3');
    CallRestAgree(tokens, s3, s3');
  }

  lemma {:induction false} CallRestAgree(tokens: seq<Token>, s: State, s': State)
    requires s.index == s'.index <= |tokens|
    ensures Agree(s, s', ParseCallRest(tokens, s), ParseCallRest(tokens, s'))
    decreases |tokens| - s.index, 8, 0
  {
    var closed := Check(tokens, s, BracedClose);
    if closed.Ok? && !closed.value {
      ArgsAgree(tokens, s, s');
    }
  }

  lemma {:induction false} ArgsAgree(tokens: seq<Token>, s: State, s': State)
    requires s.index == s'.index <= |tokens|
    ensures Agree(s, s', ParseArgs(tokens, s), ParseArgs(tokens, s'))
    decreases |tokens| - s.index, 7, 0
  {
    var s1 := s.(tree := AddAndPush(s.tree, ValueBody));
    var s1' := s'.(tree := AddAndPush(s'.tree, ValueBody));
    ValueAgree(tokens, s1, s1');
    var r2 := ParseValue(tokens, s1);
    var r2' := ParseValue(tokens, s1');
    if r2.Ok? {
      var s3 := r2.value.(tree := Pop(r2.value.tree));
      var s3' := r2'.value.(tree := Pop(r2'.value.tree));
      var more := Check(tokens, s3, Comma);
      if more.Ok? && more.value {
        ArgsAgree(tokens, s3, s3');
      }
    }
  }

  lemma {:induction false} VarDefAgree(tokens: seq<Token>, s: State, s': State)
    requires s.index == s'.index <= |tokens|
    ensures Agree(s, s', ParseVarDef(tokens, s), ParseVarDef(tokens, s'))
    decreases |tokens| - s.index, 1, 0
  {
    var p1 := CheckAndStep(tokens, s, VarType);
    var p1' := CheckAndStep(tokens, s', VarType);
    if p1.Fail? {
      assert ParseVarDef(tokens, s) == Fail(p1.st, p1.msg);
      assert ParseVarDef(tokens, s') == Fail(p1'.st, p1'.msg);
      return;
    }
    var p2 := CheckAndStep(tokens, p1.value.1, Name);
    var p2' := CheckAndStep(tokens, p1'.value.1, Name);
    if p2.Fail? {
      assert ParseVarDef(tokens, s) == Fail(p2.st, p2.msg);
      assert ParseVarDef(tokens, s') == Fail(p2'.st, p2'.msg);
      return;
    }
    var s3 := p2.value.1.(tree := AddNode(p2.value.1.tree, VarDefineNode(p1.value.0, p2.value.0)));
    var s3' := p2'.value.1.(tree := AddNode(p2'.value.1.tree, VarDefineNode(p1'.value.0, p2'.value.0)));
    assert ParseVarDef(tokens, s) == ParseVarDefRest(tokens, s3, p2.value.0);
    assert ParseVarDef(tokens, s') == ParseVarDefRest(tokens, s3', p2'.value.0);
    VarDefRestAgree(tokens, s3, s3', p2.value.0, p2'.value.0);
  }

  lemma {:induction false} VarDefRestAgree(tokens: seq<Token>, s: State, s': State, name: string, name': string)
    requires s.index == s'.index <= |tokens|
    ensures Agree(s, s', ParseVarDefRest(tokens, s, name), ParseVarDefRest(tokens, s', name'))
    decreases |tokens| - s.index, 1, 0
  {
    var q := StepIf(tokens, s, AssignOp);
    var q' := StepIf(tokens, s', AssignOp);
    if q.Ok? && q.value.0 {
      InitializerAgree(tokens, q.value.1, q'.value.1, name, name');
    }
  }

  lemma {:induction false} InitializerAgree(tokens: seq<Token>, s: State, s': State, name: string, name': string)
    requires s.index == s'.index <= |tokens|
    ensures Agree(s, s', ParseInitializer(tokens, s, name), ParseInitializer(tokens, s', name'))
    decreases |tokens| - s.index, 7, 0
  {
    ValueAgree(tokens, s.(tree := AddAndPush(s.tree, AssignNode(name))), s'.(tree := AddAndPush(s'.tree, AssignNode(name'))));
  }

  lemma {:induction false} VarAssignAgree(tokens: seq<Token>, s: State, s': State)
    requires s.index == s'.index <= |tokens|
    ensures Agree(s, s', ParseVarAssign(tokens, s), ParseVarAssign(tokens, s'))
    decreases |tokens| - s.index, 1, 0
  {
    var p1 := CheckAndStep(tokens, s, Name);
    var p1' := CheckAndStep(tokens, s', Name);
    if p1.Fail? {
      assert ParseVarAssign(tokens, s) == Fail(p1.st, p1.msg);
      assert ParseVarAssign(tokens, s') == Fail(p1'.st, p1'.msg);
      return;
    }
    var p2 := CheckAndStep(tokens, p1.value.1, AssignOp);
    var p2' := CheckAndStep(tokens, p1'.value.1, AssignOp);
    if p2.Fail? {
      assert ParseVarAssign(tokens, s) == Fail(p2.st, p2.msg);
      assert ParseVarAssign(tokens, s') == Fail(p2'.st, p2'.msg);
      return;
    }
    InitializerAgree(tokens, p2.value.1, p2'.value.1, p1.value.0, p1'.value.0);
    var r3 := ParseInitializer(tokens, p2.value.1, p1.value.0);
    var r3' := ParseInitializer(tokens, p2'.value.1, p1'.value.0);
    if r3.Fail? {
      assert ParseVarAssign(tokens, s) == Fail(r3.st, r3.msg);
      assert ParseVarAssign(tokens, s') == Fail(r3'.st, r3'.msg);
      return;
    }
    var p4 := CheckAndStep(tokens, r3.value, LineEnd);
    var p4' := CheckAndStep(tokens, r3'.value, LineEnd);
    if p4.Fail? {
      assert ParseVarAssign(tokens, s) == Fail(p4.st, p4.msg);
      assert ParseVarAssign(tokens, s') == Fail(p4'.st, p4'.msg);
    } else {
      assert ParseVarAssign(tokens, s) == Ok(p4.value.1);
      assert ParseVarAssign(tokens, s') == Ok(p4'.value.1);
    }
  }

  // ---------------------------------------------------------------------
  // Values

  lemma {:induction false} ValueAgree(tokens: seq<Token>, s: State, s': State)
    requires s.index == s'.index <= |tokens|
    ensures Agree(s, s', ParseValue(tokens, s), ParseValue(tokens, s'))
    decreases |tokens| - s.index, 6, 0
  {
    TermAgree(tokens, s, s');
    var r1 := ParseTerm(tokens, s);
    var r1' := ParseTerm(tokens, s');
    if r1.Ok? {
      ValueTailAgree(tokens, r1.value, r1'.value);
    }
  }

  lemma {:induction false} TermAgree(tokens: seq<Token>, s: State, s': State)
    requires s.index == s'.index <= |tokens|
    ensures Agree(s, s', ParseTerm(tokens, s), ParseTerm(tokens, s'))
    decreases |tokens| - s.index, 5, 0
  {
    var open := StepIf(tokens, s, BracedOpen);
    var open' := StepIf(tokens, s', BracedOpen);
    if open.Ok? {
      if open.value.0 {
        ParenthesizedAgree(tokens, open.value.1, open'.value.1);
      } else {
        OperandAgree(tokens, s, s');
      }
    }
  }

  lemma {:induction false} ValueTailAgree(tokens: seq<Token>, s: State, s': State)
    requires s.index == s'.index <= |tokens|
    ensures Agree(s, s', ParseValueTail(tokens, s), ParseValueTail(tokens, s'))
    decreases |tokens| - s.index, 1, 0
  {
    var op := StepIf(tokens, s, MathOp);
    var op' := StepIf(tokens, s', MathOp);
    if op.Ok? && op.value.0 {
      ValueAgree(tokens, op.value.1.(tree := AddNode(op.value.1.tree, MathOperationNode(tokens[s.index].text))),
                 op'.value.1.(tree := AddNode(op'.value.1.tree, MathOperationNode(tokens[s.index].text))));
    }
  }

  lemma {:induction false} ParenthesizedAgree(tokens: seq<Token>, s: State, s': State)
    requires s.index == s'.index <= |tokens|
    ensures Agree(s, s', ParseParenthesized(tokens, s), ParseParenthesized(tokens, s'))
    decreases |tokens| - s.index, 7, 0
  {
    ValueAgree(tokens, s.(tree := AddAndPush(s.tree, ValueBody)), s'.(tree := AddAndPush(s'.tree, ValueBody)));
  }

  lemma {:induction false} OperandAgree(tokens: seq<Token>, s: State, s': State)
    requires s.index == s'.index <= |tokens|
    ensures Agree(s, s', ParseOperand(tokens, s), ParseOperand(tokens, s'))
    decreases |tokens| - s.index, 4, 0
  {
    var isName := Check(tokens, s, Name);
    if isName.Ok? && isName.value {
      TryStepAgree(tokens, s, s', CallRule);
      var (called, t) := TryStep(tokens, s, CallRule);
      var (called', t') := TryStep(tokens, s', CallRule);
      if called {
        assert ParseOperand(tokens, s) == Ok(t);
        assert ParseOperand(tokens, s') == Ok(t');
      } else {
        assert ParseOperand(tokens, s) == Ok(Advance(t.(tree := AddNode(t.tree, VarNameNode(tokens[t.index].text)))));
        assert ParseOperand(tokens, s') == Ok(Advance(t'.(tree := AddNode(t'.tree, VarNameNode(tokens[t'.index].text)))));
      }
    }
  }

  // ---------------------------------------------------------------------
  // The `||` chain

  /** The position of the first rule whose production succeeds from `s`,
      or None when every one of them fails. */
  function FirstSuccess(tokens: seq<Token>, s: State, rules: seq<Rule>): (r: Option<nat>)
    requires s.index <= |tokens|
    ensures r.Some? ==> && r.value < |rules| && Apply(tokens, s, rules[r.value]).Ok?
                        && forall j :: 0 <= j < r.value ==> Apply(tokens, s, rules[j]).Fail?
    ensures r.None? ==> forall j :: 0 <= j < |rules| ==> Apply(tokens, s, rules[j]).Fail?
    decreases |rules|
  {
    if rules == [] then None
    else if Apply(tokens, s, rules[0]).Ok? then Some(0)
    else
      match FirstSuccess(tokens, s, rules[1..])
      case None => None
      case Some(k) => Some(k + 1)
  }

  /** Which rule succeeds first depends only on the cursor. */
  lemma {:induction false} FirstSuccessAgree(tokens: seq<Token>, s: State, s': State, rules: seq<Rule>)
    requires s.index == s'.index <= |tokens|
    ensures FirstSuccess(tokens, s, rules) == FirstSuccess(tokens, s', rules)
    decreases |rules|
  {
    if rules != [] {
      ApplyAgree(tokens, s, s', rules[0]);
      FirstSuccessAgree(tokens, s, s', rules[1..]);
    }
  }

  /** The `||` chain of `expr` commits the first production that succeeds
      from the cursor: it succeeds exactly when some rule's production does,
      and then the cursor ends where the first such production leaves it. */
  lemma {:induction false} TryInOrderFirstSuccess(tokens: seq<Token>, s: State, rules: seq<Rule>)
    requires s.index <= |tokens|
    ensures var (ok, t) := TryInOrder(tokens, s, rules);
            var k := FirstSuccess(tokens, s, rules);
            && ok == k.Some?
            && (ok ==> t.index == Apply(tokens, s, rules[k.value]).value.index)
    decreases |rules|
  {
    if rules != [] {
      var (ok, t) := TryStep(tokens, s, rules[0]);
      if ok {
        assert TryInOrder(tokens, s, rules) == (true, t);
        assert FirstSuccess(tokens, s, rules) == Some(0);
      } else {
        assert TryInOrder(tokens, s, rules) == TryInOrder(tokens, t, rules[1..]);
        TryInOrderFirstSuccess(tokens, t, rules[1..]);
        FirstSuccessAgree(tokens, t, s, rules[1..]);
        var k := FirstSuccess(tokens, s, rules[1..]);
        if k.Some? {
          assert FirstSuccess(tokens, s, rules) == Some(k.value + 1);
          assert rules[1..][k.value] == rules[k.value + 1];
          ApplyAgree(tokens, t, s, rules[k.value + 1]);
        } else {
          assert FirstSuccess(tokens, s, rules) == None;
        }
      }
    }
  }
}

=== FILE: parser.dfy ===
/** The backtracking recursive-descent parser. Every production is a function
    from the state before it to a `Res`: the state after it, or the failure
    the source raises as an exception together with the state at that moment.
    Alternatives are tried speculatively by `TryStep`, which rolls the cursor,
    the context stack and the current context's children back on failure.

    Termination: every production consumes a token before it re-enters a
    production of equal or higher rank, so the pair (tokens left, rank)
    decreases on every call. What the productions do to the tree is proved
    separately, in module ParserFrames. */
module Parser {
  import opened Tokens
  import opened ErrorLog
  import opened ParseState

  /** The productions `tryStep` is applied to. */
  datatype Rule =
    | VarDefRule
    | VarAssignRule
    | IfRule
    | WhileRule
    | CallStatementRule
    | BodyRule
    | LineEndRule
    | CallRule

  /** The order in which `expr` tries the statement productions. */
  const StatementOrder: seq<Rule> :=
    [VarDefRule, VarAssignRule, IfRule, WhileRule, CallStatementRule, BodyRule, LineEndRule]

  /** Productions that reach another production without consuming a token
      first rank above it. */
  function RuleRank(rule: Rule): nat {
    if rule == CallStatementRule || rule == BodyRule then 2 else 1
  }

  /** What every parsing step promises about the state it leaves: it is
      well formed, the cursor has not moved back, and every recorded error
      was already there or was recorded at or after the starting position. */
  predicate Moves(tokens: seq<Token>, s: State, t: State) {
    && t.index <= |tokens|
    && s.index <= t.index
    && (forall e :: e in t.errors ==> e in s.errors || s.index <= e.pos <= |tokens|)
  }

  /** What every production promises: it moves, and a success has
      consumed at least one token. */
  predicate StepContract(tokens: seq<Token>, s: State, r: Res<State>) {
    && Moves(tokens, s, After(r))
    && (r.Ok? ==> s.index < r.value.index)
  }

  /** The cursor stands at the end of input or at a closing brace. */
  predicate AtBlockEnd(tokens: seq<Token>, i: nat) {
    i >= |tokens| || tokens[i].kind == BodyClose
  }

  // ---------------------------------------------------------------------
  // Token helpers

  /** `current`: the token under the cursor, or an end-of-input failure. */
  function Current(tokens: seq<Token>, s: State): (r: Res<Token>)
    ensures r.Ok? <==> s.index < |tokens|
    ensures r.Ok? ==> r.value == tokens[s.index]
    ensures r.Fail? ==> r.st == s && r.msg == EndOfInput
  {
    if s.index >= |tokens| then Fail(s, EndOfInput) else Ok(tokens[s.index])
  }

  /** `check`: does the token under the cursor have type `t`? */
  function Check(tokens: seq<Token>, s: State, t: Terminal): (r: Res<bool>)
    ensures r.Ok? <==> s.index < |tokens|
    ensures r.Ok? ==> (r.value <==> tokens[s.index].kind == t)
    ensures r.Fail? ==> r.st == s && r.msg == EndOfInput
  {
    var tok :- Current(tokens, s);
    Ok(tok.kind == t)
  }

  /** `stepIF`: consume the token under the cursor if it has type `t`. */
  function StepIf(tokens: seq<Token>, s: State, t: Terminal): (r: Res<(bool, State)>)
    ensures r.Ok? <==> s.index < |tokens|
    ensures r.Ok? ==> (r.value.0 <==> tokens[s.index].kind == t)
    ensures r.Ok? && r.value.0 ==> r.value.1 == s.(index := s.index + 1)
    ensures r.Ok? && !r.value.0 ==> r.value.1 == s
    ensures r.Fail? ==> r.st == s && r.msg == EndOfInput
  {
    var matched :- Check(tokens, s, t);
    if matched then Ok((true, Advance(s))) else Ok((false, s))
  }

  /** `checkAndStep`: require a token of type `t`, consume it and return
      its text. */
  function CheckAndStep(tokens: seq<Token>, s: State, t: Terminal): (r: Res<(string, State)>)
    ensures r.Ok? <==> s.index < |tokens| && tokens[s.index].kind == t
    ensures r.Ok? ==> r.value == (tokens[s.index].text, s.(index := s.index + 1))
    ensures r.Fail? ==> r.st == s
    ensures r.Fail? ==> r.msg == if s.index < |tokens| then Expected(t) else EndOfInput
  {
    var tok :- Current(tokens, s);
    if tok.kind != t then Fail(s, Expected(t)) else Ok((tok.text, Advance(s)))
  }

  /** The token helpers agree: all of them fail exactly at the end of
      input and in the same way, `stepIF` steps exactly when `check`
      answers yes, and `checkAndStep` succeeds exactly when `stepIF`
      steps, landing in the same state with the current token's text. */
  lemma TokenHelpersAgree(tokens: seq<Token>, s: State, t: Terminal)
    ensures Check(tokens, s, t).Fail? <==> Current(tokens, s).Fail?
    ensures StepIf(tokens, s, t).Fail? <==> Current(tokens, s).Fail?
    ensures Current(tokens, s).Fail? ==>
              && Check(tokens, s, t) == Fail(s, EndOfInput)
              && StepIf(tokens, s, t) == Fail(s, EndOfInput)
              && CheckAndStep(tokens, s, t) == Fail(s, EndOfInput)
    ensures StepIf(tokens, s, t).Ok? ==> (StepIf(tokens, s, t).value.0 <==> Check(tokens, s, t).value)
    ensures CheckAndStep(tokens, s, t).Ok? <==> StepIf(tokens, s, t).Ok? && StepIf(tokens, s, t).value.0
    ensures CheckAndStep(tokens, s, t).Ok? ==>
              && CheckAndStep(tokens, s, t).value.1 == StepIf(tokens, s, t).value.1
              && CheckAndStep(tokens, s, t).value.0 == Current(tokens, s).value.text
  {
  }

  // ---------------------------------------------------------------------
  // Entry point and the statement loop

  /** `run`: parse the whole token list into the tree rooted at node 0. */
  function Run(tokens: seq<Token>): (r: Res<State>)
    ensures After(r).index <= |tokens|
    ensures r.Ok? ==> AtBlockEnd(tokens, r.value.index)
    ensures r.Fail? ==> r.msg == EndOfInput && r.st.index == |tokens|
  {
    ParseExpr(tokens, InitialState())
  }

  /** `expr`: parse statements into the current context until the end of
      input or a closing brace, which is left unconsumed. Each iteration
      clears the shared error log and tries the statement productions in
      `StatementOrder`; when all of them fail it jumps to the furthest
      recorded failure, prints it and skips that token. */
  function ParseExpr(tokens: seq<Token>, s: State): (r: Res<State>)
    requires s.index <= |tokens|
    ensures Moves(tokens, s, After(r))
    ensures r.Ok? ==> AtBlockEnd(tokens, r.value.index)
    ensures r.Fail? ==> r.msg == EndOfInput && r.st.index == |tokens|
    ensures s.index < |tokens| ==> forall e :: e in After(r).errors ==> s.index <= e.pos
    ensures s.index < |tokens| && tokens[s.index].kind == BodyClose ==> r == Ok(s.(errors := []))
    decreases |tokens| - s.index, 6, 0
  {
    if |tokens| <= s.index then Ok(s)
    else
      var s0 := s.(errors := []);
      if tokens[s0.index].kind == BodyClose then Ok(s0)
      else
        var (ok, s1) := TryInOrder(tokens, s0, StatementOrder);
        if ok then ParseExpr(tokens, s1)
        else
          var s2 :- Recover(tokens, s0.index, s1);
          ParseExpr(tokens, s2)
  }

  /** The recovery step of `expr` after every statement production failed
      at `from`: sort the log by descending position (the sorted list
      replaces the log), move the cursor to the furthest failure, print it
      and skip that token. If the furthest failure lies at the end of
      input, reading its token fails and the failure escapes `run`. The
      branch for an empty log prints a generic message; it is unreachable,
      because the LINE_END alternative always records a failure. */
  function Recover(tokens: seq<Token>, from: nat, s: State): (r: Res<State>)
    requires from < |tokens| && s.index == from
    requires forall e :: e in s.errors ==> from <= e.pos <= |tokens|
    ensures Moves(tokens, s, After(r))
    ensures r.Ok? ==> from < r.value.index
    ensures After(r).tree == s.tree
    ensures r.Ok? ==> |r.value.diags| == |s.diags| + 1 && r.value.diags[..|s.diags|] == s.diags
    ensures r.Fail? ==> r.msg == EndOfInput && r.st.index == |tokens|
  {
    if |s.errors| > 0 then
      var sorted := SortDesc(s.errors);
      var s2 := s.(errors := sorted, index := sorted[0].pos);
      if |tokens| <= s2.index then Fail(s2, EndOfInput)
      else Ok(Advance(s2.(diags := s2.diags + [Diagnostic(tokens[s2.index].start, sorted[0].msg)])))
    else
      Ok(Advance(s.(diags := s.diags + [Diagnostic(tokens[s.index].start, InvalidConstruct)])))
  }

  /** The `||` chain of `expr`: try each rule in turn, stop at the first
      that succeeds. */
  function TryInOrder(tokens: seq<Token>, s: State, rules: seq<Rule>): (r: (bool, State))
    requires s.index <= |tokens|
    ensures Moves(tokens, s, r.1)
    ensures r.0 ==> s.index < r.1.index
    ensures !r.0 ==> r.1.index == s.index
    decreases |tokens| - s.index, 5, |rules|
  {
    if rules == [] then (false, s)
    else
      var (ok, t) := TryStep(tokens, s, rules[0]);
      if ok then (true, t) else TryInOrder(tokens, t, rules[1..])
  }

  /** `tryStep`: run a production speculatively. On success its result is
      committed unchanged; on failure the failure is appended to the log
      and `Rollback` restores the cursor, the stack and the children of the
      current context. */
  function TryStep(tokens: seq<Token>, s: State, rule: Rule): (r: (bool, State))
    requires s.index <= |tokens|
    ensures Moves(tokens, s, r.1)
    ensures r.0 <==> Apply(tokens, s, rule).Ok?
    ensures r.0 ==> r.1 == Apply(tokens, s, rule).value
    ensures r.0 ==> s.index < r.1.index
    ensures !r.0 ==> r.1.index == s.index
    ensures !r.0 ==> r.1.errors == Apply(tokens, s, rule).st.errors
                                   + [ErrorRecord(Apply(tokens, s, rule).st.index, Apply(tokens, s, rule).msg)]
    ensures !r.0 ==> s.index <= r.1.errors[|r.1.errors| - 1].pos
    decreases |tokens| - s.index, RuleRank(rule) + 2, 0
  {
    match Apply(tokens, s, rule)
    case Ok(t) => (true, t)
    case Fail(t, msg) => (false, Rollback(s.index, |s.tree.stack|, ChildCount(s.tree), t, msg))
  }

  /** Invokes the production a rule names. */
  function Apply(tokens: seq<Token>, s: State, rule: Rule): (r: Res<State>)
    requires s.index <= |tokens|
    ensures StepContract(tokens, s, r)
    decreases |tokens| - s.index, RuleRank(rule) + 1, 0
  {
    match rule
    case VarDefRule => ParseVarDef(tokens, s)
    case VarAssignRule => ParseVarAssign(tokens, s)
    case IfRule => ParseIf(tokens, s)
    case WhileRule => ParseWhile(tokens, s)
    case CallStatementRule => ParseCallStatement(tokens, s)
    case BodyRule => ParseBody(tokens, s)
    case LineEndRule => ParseLineEnd(tokens, s)
    case CallRule => ParseCall(tokens, s)
  }

  // ---------------------------------------------------------------------
  // Statement productions

  /** BODY_OPEN expr BODY_CLOSE, into the current context. */
  function ParseBlock(tokens: seq<Token>, s: State): (r: Res<State>)
    requires s.index <= |tokens|
    ensures StepContract(tokens, s, r)
    decreases |tokens| - s.index, 1, 0
  {
    var p1 :- CheckAndStep(tokens, s, BodyOpen);
    var s2 :- ParseExpr(tokens, p1.1);
    var p3 :- CheckAndStep(tokens, s2, BodyClose);
    Ok(p3.1)
  }

  /** `body`: a nested block, attached as one BodyNode. */
  function ParseBody(tokens: seq<Token>, s: State): (r: Res<State>)
    requires s.index <= |tokens|
    ensures StepContract(tokens, s, r)
    decreases |tokens| - s.index, 2, 0
  {
    var s1 := s.(tree := AddAndPush(s.tree, BodyNode));
    var s2 :- ParseBlock(tokens, s1);
    Ok(s2.(tree := Pop(s2.tree)))
  }

  /** `while_operator`: WHILE ( condition ) { expr }. The condition node is
      stored in the loop node's `condition` field. */
  function ParseWhile(tokens: seq<Token>, s: State): (r: Res<State>)
    requires s.index <= |tokens|
    ensures StepContract(tokens, s, r)
    decreases |tokens| - s.index, 1, 0
  {
    var h :- WhileHead(tokens, s);
    var s6 :- ParseBlock(tokens, h.1);
    Ok(s6.(tree := Pop(s6.tree)))
  }

  /** The loop up to its block: the loop node is attached and becomes the
      current context, WHILE ( condition ) is read and the condition is
      stored in the node. The result is the condition's id and the state
      the block starts in. */
  function WhileHead(tokens: seq<Token>, s: State): (r: Res<(nat, State)>)
    requires s.index <= |tokens|
    ensures Moves(tokens, s, AfterPair(r))
    ensures r.Ok? ==> s.index < r.value.1.index
    decreases |tokens| - s.index, 0, 0
  {
    var w := |s.tree.arena|;
    var s1 := s.(tree := AddAndPush(s.tree, WhileNode(None)));
    var p2 :- CheckAndStep(tokens, s1, WhileOp);
    var p3 :- CheckAndStep(tokens, p2.1, BracedOpen);
    var c :- ParseCondition(tokens, p3.1);
    var s4 := c.1.(tree := SetKind(c.1.tree, w, WhileNode(Some(c.0))));
    var p5 :- CheckAndStep(tokens, s4, BracedClose);
    Ok((c.0, p5.1))
  }

  /** `if_operator`: IF ( condition ) { expr } ( ELSE { expr } )?. */
  function ParseIf(tokens: seq<Token>, s: State): (r: Res<State>)
    requires s.index <= |tokens|
    ensures StepContract(tokens, s, r)
    decreases |tokens| - s.index, 1, 0
  {
    var h :- IfHead(tokens, s);
    var s6 :- ParseBlock(tokens, h.1);
    ParseElse(tokens, s6, |s.tree.arena|, h.0)
  }

  /** The branch up to its then-block: the branch node is attached and
      becomes the current context, IF ( condition ) is read and the
      condition is stored in the node. The result is the condition's id
      and the state the then-block starts in. */
  function IfHead(tokens: seq<Token>, s: State): (r: Res<(nat, State)>)
    requires s.index <= |tokens|
    ensures Moves(tokens, s, AfterPair(r))
    ensures r.Ok? ==> s.index < r.value.1.index
    decreases |tokens| - s.index, 0, 0
  {
    var b := |s.tree.arena|;
    var s1 := s.(tree := AddAndPush(s.tree, BranchNode(None, None)));
    var p2 :- CheckAndStep(tokens, s1, IfOp);
    var p3 :- CheckAndStep(tokens, p2.1, BracedOpen);
    var c :- ParseCondition(tokens, p3.1);
    var s4 := c.1.(tree := SetKind(c.1.tree, b, BranchNode(Some(c.0), None)));
    var p5 :- CheckAndStep(tokens, s4, BracedClose);
    Ok((c.0, p5.1))
  }

  /** The tail of `if_operator` after the then-block, with the branch node
      `b` as the current context. The probe for ELSE reads a token like any
      other, so it fails at the end of input. */
  function ParseElse(tokens: seq<Token>, s: State, b: nat, cond: nat): (r: Res<State>)
    requires s.index <= |tokens|
    ensures Moves(tokens, s, After(r))
    decreases |tokens| - s.index, 2, 0
  {
    var q :- StepIf(tokens, s, Else);
    if q.0 then
      var s1 := q.1.(tree := OpenElse(q.1.tree, b, cond));
      var s2 :- ParseBlock(tokens, s1);
      Ok(s2.(tree := Pop(Pop(s2.tree))))
    else
      Ok(q.1.(tree := Pop(q.1.tree)))
  }

  /** The else-body of a branch: a new BodyNode stored in the branch's
      `elseBody` field and pushed as the current context. */
  function OpenElse(t: Tree, branch: nat, cond: nat): (r: Tree)
    ensures |r.arena| == |t.arena| + 1 && r.arena[|t.arena|] == Node(BodyNode, [])
    ensures branch < |t.arena| ==> r.arena[branch] == t.arena[branch].(kind := BranchNode(Some(cond), Some(|t.arena|)))
    ensures forall i :: 0 <= i < |t.arena| && i != branch ==> r.arena[i] == t.arena[i]
    ensures r.stack == t.stack + [|t.arena|]
  {
    var e := |t.arena|;
    Push(Alloc(SetKind(t, branch, BranchNode(Some(cond), Some(e))), BodyNode), e)
  }

  /** `condition`: value CONDITION_OP value. Each side is parsed into its
      own container, and the condition node owning both is returned (as
      its id) rather than attached. */
  function ParseCondition(tokens: seq<Token>, s: State): (r: Res<(nat, State)>)
    requires s.index <= |tokens|
    ensures Moves(tokens, s, AfterPair(r))
    ensures r.Ok? ==> s.index < r.value.1.index
    decreases |tokens| - s.index, 8, 0
  {
    var left :- ParseSide(tokens, s);
    var op :- CheckAndStep(tokens, left.1, ConditionOp);
    var right :- ParseSide(tokens, op.1);
    var t := right.1.tree;
    Ok((|t.arena|, right.1.(tree := Alloc(t, ConditionNode(left.0, op.0, right.0)))))
  }

  /** One side of a condition: a new container, owned by the condition
      rather than attached, is pushed while the value is parsed into it. */
  function ParseSide(tokens: seq<Token>, s: State): (r: Res<(nat, State)>)
    requires s.index <= |tokens|
    ensures Moves(tokens, s, AfterPair(r))
    ensures r.Ok? ==> s.index < r.value.1.index
    decreases |tokens| - s.index, 7, 0
  {
    var side := |s.tree.arena|;
    var s1 := s.(tree := Push(Alloc(s.tree, ConditionSide), side));
    var s2 :- ParseValue(tokens, s1);
    Ok((side, s2.(tree := Pop(s2.tree))))
  }

  /** `call_e`: a call used as a statement, ended by LINE_END. */
  function ParseCallStatement(tokens: seq<Token>, s: State): (r: Res<State>)
    requires s.index <= |tokens|
    ensures StepContract(tokens, s, r)
    decreases |tokens| - s.index, 2, 0
  {
    var s1 :- ParseCall(tokens, s);
    var p2 :- CheckAndStep(tokens, s1, LineEnd);
    Ok(p2.1)
  }

  /** `call`: NAME ( (value (COMMA value)*)? ). The CallNode is added only
      after the opening parenthesis has been read. */
  function ParseCall(tokens: seq<Token>, s: State): (r: Res<State>)
    requires s.index <= |tokens|
    ensures StepContract(tokens, s, r)
    decreases |tokens| - s.index, 1, 0
  {
    var p1 :- CheckAndStep(tokens, s, Name);
    var p2 :- CheckAndStep(tokens, p1.1, BracedOpen);
    ParseCallRest(tokens, p2.1.(tree := AddAndPush(p2.1.tree, CallNode(p1.0))))
  }

  /** The part of `call` after the opening parenthesis, with the CallNode
      as the current context: the arguments unless a closing parenthesis
      follows at once, then the closing parenthesis. */
  function ParseCallRest(tokens: seq<Token>, s: State): (r: Res<State>)
    requires s.index <= |tokens|
    ensures StepContract(tokens, s, r)
    decreases |tokens| - s.index, 8, 0
  {
    var closed :- Check(tokens, s, BracedClose);
    var s1 :- if closed then Ok(s) else ParseArgs(tokens, s);
    var p2 :- CheckAndStep(tokens, s1, BracedClose);
    Ok(p2.1.(tree := Pop(p2.1.tree)))
  }

  /** The do-while argument loop of `call`: each argument is a value inside
      its own ValueBody, and the loop repeats while the token after it is a
      COMMA, which it tests but does not consume. The repetition therefore
      starts a value at the comma and fails. */
  function ParseArgs(tokens: seq<Token>, s: State): (r: Res<State>)
    requires s.index <= |tokens|
    ensures StepContract(tokens, s, r)
    decreases |tokens| - s.index, 7, 0
  {
    var s1 := s.(tree := AddAndPush(s.tree, ValueBody));
    var s2 :- ParseValue(tokens, s1);
    var s3 := s2.(tree := Pop(s2.tree));
    var more :- Check(tokens, s3, Comma);
    if more then ParseArgs(tokens, s3) else Ok(s3)
  }

  /** `var_def`: VAR_TYPE NAME (ASSIGN_OP value)? LINE_END. The AssignNode
      of an initializer is a sibling of the VarDefineNode, not its child. */
  function ParseVarDef(tokens: seq<Token>, s: State): (r: Res<State>)
    requires s.index <= |tokens|
    ensures StepContract(tokens, s, r)
    decreases |tokens| - s.index, 1, 0
  {
    var p1 :- CheckAndStep(tokens, s, VarType);
    var p2 :- CheckAndStep(tokens, p1.1, Name);
    ParseVarDefRest(tokens, p2.1.(tree := AddNode(p2.1.tree, VarDefineNode(p1.0, p2.0))), p2.0)
  }

  /** The part of `var_def` after VAR_TYPE NAME, once the VarDefineNode
      for `name` has been added: the optional initializer and LINE_END. */
  function ParseVarDefRest(tokens: seq<Token>, s: State, name: string): (r: Res<State>)
    requires s.index <= |tokens|
    ensures StepContract(tokens, s, r)
    decreases |tokens| - s.index, 1, 0
  {
    var q :- StepIf(tokens, s, AssignOp);
    var s1 :- if q.0 then ParseInitializer(tokens, q.1, name) else Ok(q.1);
    var p2 :- CheckAndStep(tokens, s1, LineEnd);
    Ok(p2.1)
  }

  /** The value after ASSIGN_OP, parsed inside a new AssignNode. */
  function ParseInitializer(tokens: seq<Token>, s: State, name: string): (r: Res<State>)
    requires s.index <= |tokens|
    ensures StepContract(tokens, s, r)
    decreases |tokens| - s.index, 7, 0
  {
    var s1 := s.(tree := AddAndPush(s.tree, AssignNode(name)));
    var s2 :- ParseValue(tokens, s1);
    Ok(s2.(tree := Pop(s2.tree)))
  }

  /** `var_assign`: NAME ASSIGN_OP value LINE_END. */
  function ParseVarAssign(tokens: seq<Token>, s: State): (r: Res<State>)
    requires s.index <= |tokens|
    ensures StepContract(tokens, s, r)
    decreases |tokens| - s.index, 1, 0
  {
    var p1 :- CheckAndStep(tokens, s, Name);
    var p2 :- CheckAndStep(tokens, p1.1, AssignOp);
    var s3 :- ParseInitializer(tokens, p2.1, p1.0);
    var p4 :- CheckAndStep(tokens, s3, LineEnd);
    Ok(p4.1)
  }

  /** `line_end`: an empty statement. */
  function ParseLineEnd(tokens: seq<Token>, s: State): (r: Res<State>)
    requires s.index <= |tokens|
    ensures StepContract(tokens, s, r)
    ensures r.Ok? <==> s.index < |tokens| && tokens[s.index].kind == LineEnd
    ensures r.Ok? ==> r.value == s.(index := s.index + 1)
    ensures r.Fail? ==> r.st == s
  {
    var p :- CheckAndStep(tokens, s, LineEnd);
    Ok(p.1)
  }

  // ---------------------------------------------------------------------
  // Values

  /** `value`: an operand, optionally followed by MATH_OP and another
      value. Operators and operands are attached as siblings in the same
      container. */
  function ParseValue(tokens: seq<Token>, s: State): (r: Res<State>)
    requires s.index <= |tokens|
    ensures StepContract(tokens, s, r)
    decreases |tokens| - s.index, 6, 0
  {
    var s1 :- ParseTerm(tokens, s);
    ParseValueTail(tokens, s1)
  }

  /** The operand of `value`: ( value ) | const_value | NAME | call. */
  function ParseTerm(tokens: seq<Token>, s: State): (r: Res<State>)
    requires s.index <= |tokens|
    ensures StepContract(tokens, s, r)
    decreases |tokens| - s.index, 5, 0
  {
    var open :- StepIf(tokens, s, BracedOpen);
    if open.0 then ParseParenthesized(tokens, open.1) else ParseOperand(tokens, s)
  }

  /** The optional MATH_OP value after an operand. */
  function ParseValueTail(tokens: seq<Token>, s: State): (r: Res<State>)
    requires s.index <= |tokens|
    ensures Moves(tokens, s, After(r))
    decreases |tokens| - s.index, 1, 0
  {
    var op :- StepIf(tokens, s, MathOp);
    if op.0 then
      ParseValue(tokens, op.1.(tree := AddNode(op.1.tree, MathOperationNode(tokens[s.index].text))))
    else
      Ok(s)
  }

  /** The inside of ( value ): a ValueBody holding the value, then the
      closing parenthesis. */
  function ParseParenthesized(tokens: seq<Token>, s: State): (r: Res<State>)
    requires s.index <= |tokens|
    ensures StepContract(tokens, s, r)
    decreases |tokens| - s.index, 7, 0
  {
    var s1 := s.(tree := AddAndPush(s.tree, ValueBody));
    var s2 :- ParseValue(tokens, s1);
    var p3 :- CheckAndStep(tokens, s2, BracedClose);
    Ok(p3.1.(tree := Pop(p3.1.tree)))
  }

  /** A single operand: a call if one parses here (tried speculatively), a
      variable name otherwise, or a literal constant. */
  function ParseOperand(tokens: seq<Token>, s: State): (r: Res<State>)
    requires s.index <= |tokens|
    ensures StepContract(tokens, s, r)
    decreases |tokens| - s.index, 4, 0
  {
    var isName :- Check(tokens, s, Name);
    if isName then
      var (called, t) := TryStep(tokens, s, CallRule);
      if called then Ok(t)
      else Ok(Advance(t.(tree := AddNode(t.tree, VarNameNode(tokens[t.index].text)))))
    else
      ParseConstValue(tokens, s)
  }

  /** `const_value`: DIGIT | DIGIT_NATURAL | BOOLEAN, added as a
      ConstantNode carrying the literal's text and type. */
  function ParseConstValue(tokens: seq<Token>, s: State): (r: Res<State>)
    requires s.index <= |tokens|
    ensures StepContract(tokens, s, r)
    ensures r.Ok? <==> s.index < |tokens| && IsLiteral(tokens[s.index].kind)
    ensures r.Ok? ==> r.value.index == s.index + 1
                      && r.value.tree == AddNode(s.tree, ConstantNode(tokens[s.index].text, tokens[s.index].kind))
    ensures r.Fail? ==> r.st == s && r.msg == (if s.index < |tokens| then BadLiteral else EndOfInput)
  {
    // The three `check` calls of the source read the same token, so only
    // the first of them can meet the end of input.
    var tok :- Current(tokens, s);
    if IsLiteral(tok.kind) then Ok(Advance(s.(tree := AddNode(s.tree, ConstantNode(tok.text, tok.kind)))))
    else Fail(s, BadLiteral)
  }
}

=== FILE: recovery.dfy ===
/** Error recovery in `expr`: what a failed statement leaves in the log,
    where recovery moves the cursor, and the outcome of a whole run. */
module ParserRecovery {
  import opened Tokens
  import opened ErrorLog
  import opened ParseState
  import opened Parser
  import opened ParserFrames

  /** A failed speculative step leaves the cursor, the stack depth and the
      current context's children as they were at entry, however deep the
      failure was, and appends one record at or after the entry cursor. */
  lemma TryStepRollback(tokens: seq<Token>, s: State, rule: Rule)
    requires WellFormed(s.tree) && s.index <= |tokens|
    ensures !TryStep(tokens, s, rule).0 ==>
              var t := TryStep(tokens, s, rule).1;
              && t.index == s.index
              && |t.tree.stack| == |s.tree.stack|
              && ChildCount(t.tree) == ChildCount(s.tree)
              && |s.tree.arena| <= |t.tree.arena| && t.tree.arena[..|s.tree.arena|] == s.tree.arena
              && |t.errors| > 0 && s.index <= t.errors[|t.errors| - 1].pos
  {
    TryStepFrame(tokens, s, rule);
    var t := TryStep(tokens, s, rule).1;
    if !TryStep(tokens, s, rule).0 {
      assert t.tree.arena[Top(s.tree)] == s.tree.arena[Top(s.tree)];
    }
  }

  /** When every alternative of a non-empty list fails, the cursor is back
      where it started and the log ends with a rollback record at or after
      it: the log `expr` sorts is never empty, so its generic-message
      branch is dead. */
  lemma {:induction false} FailedAlternativesLeaveRecord(tokens: seq<Token>, s: State, rules: seq<Rule>)
    requires s.index <= |tokens| && rules != []
    ensures !TryInOrder(tokens, s, rules).0 ==>
              var t := TryInOrder(tokens, s, rules).1;
              t.index == s.index && |t.errors| > 0 && s.index <= t.errors[|t.errors| - 1].pos
    decreases |rules|
  {
    var (ok, t) := TryStep(tokens, s, rules[0]);
    if !ok && |rules| > 1 {
      FailedAlternativesLeaveRecord(tokens, t, rules[1..]);
    }
  }

  /** The statement loop therefore always recovers through the branch
      that reads the log. */
  lemma StatementFailureIsLogged(tokens: seq<Token>, s: State)
    requires s.index <= |tokens|
    ensures !TryInOrder(tokens, s, StatementOrder).0 ==> |TryInOrder(tokens, s, StatementOrder).1.errors| > 0
  {
    FailedAlternativesLeaveRecord(tokens, s, StatementOrder);
  }

  /** Recovery moves the cursor just past the earliest-recorded failure with
      the greatest position, prints that failure's message at that token's
      offset and keeps the sorted log; it fails with EndOfInput exactly when
      that failure lies at the end of input. */
  lemma RecoverJumpsPastFurthest(tokens: seq<Token>, from: nat, s: State)
    requires from < |tokens| && s.index == from
    requires forall e :: e in s.errors ==> from <= e.pos <= |tokens|
    requires |s.errors| > 0
    ensures var k := FirstFurthest(s.errors);
            var r := Recover(tokens, from, s);
            && (r.Ok? <==> s.errors[k].pos < |tokens|)
            && (r.Ok? ==>
                  && r.value.index == s.errors[k].pos + 1
                  && (forall e :: e in s.errors ==> e.pos < r.value.index)
                  && r.value.errors == SortDesc(s.errors)
                  && r.value.diags == s.diags + [Diagnostic(tokens[s.errors[k].pos].start, s.errors[k].msg)])
            && (r.Fail? ==> r.msg == EndOfInput && r.st.index == |tokens| == s.errors[k].pos)
  {
    SortHeadIsFirstFurthest(s.errors);
  }

  /** A whole run leaves the tree well formed with only the root context
      open; everything parsed hangs below the root. */
  lemma RunClosesContexts(tokens: seq<Token>)
    ensures Run(tokens).Ok? ==>
              && Grows(Initial(), Run(tokens).value.tree)
              && Run(tokens).value.tree.stack == [0]
              && Run(tokens).value.tree.arena[0].kind == RootBody
  {
    ExprFrame(tokens, InitialState());
  }
}

=== FILE: scenarios.dfy ===
/** Concrete token lists on which the parser's behaviour departs from the
    grammar it is written after. */
module ParserScenarios {
  import opened Tokens
  import opened ErrorLog
  import opened ParseState
  import opened Parser
  import opened ParserShapes
  import opened ParserRecovery

  /** `f(1, 2)` */
  const TwoArgumentCall: seq<Token> := [
    Token(Name, "f", 0), Token(BracedOpen, "(", 1), Token(Digit, "1", 2),
    Token(Comma, ",", 3), Token(Digit, "2", 5), Token(BracedClose, ")", 6)]

  /** A call with two arguments is not a call: the loop sees the comma,
      does not consume it, and the next argument starts at the comma. */
  lemma TwoArgumentCallFails(s: State)
    requires s.index == 0
    ensures ParseCall(TwoArgumentCall, s).Fail?
  {
    var s1 := s.(index := 2, tree := AddAndPush(s.tree, CallNode("f")));
    assert ParseCall(TwoArgumentCall, s) == ParseCallRest(TwoArgumentCall, s1);
    ArgumentsFail(s1);
  }

  /** The argument list `1, 2)` fails, wherever the call node stands. */
  lemma ArgumentsFail(s: State)
    requires s.index == 2
    ensures ParseCallRest(TwoArgumentCall, s).Fail?
  {
    var tokens := TwoArgumentCall;
    var a := s.(tree := AddAndPush(s.tree, ValueBody));
    FirstArgument(a);
    var v := ParseValue(tokens, a).value;
    ArgsAtCommaFails(tokens, v.(tree := Pop(v.tree)));
    assert ParseArgs(tokens, s).Fail?;
  }

  /** The first argument is the literal alone: the comma ends it. */
  lemma FirstArgument(s: State)
    requires s.index == 2
    ensures ParseValue(TwoArgumentCall, s).Ok? && ParseValue(TwoArgumentCall, s).value.index == 3
  {
    assert ParseTerm(TwoArgumentCall, s).Ok? && ParseTerm(TwoArgumentCall, s).value.index == 3;
  }

  /** `if (a < 1) { }` at the very end of the input */
  const TrailingIf: seq<Token> := [
    Token(IfOp, "if", 0), Token(BracedOpen, "(", 3), Token(Name, "a", 4),
    Token(ConditionOp, "<", 6), Token(Digit, "1", 8), Token(BracedClose, ")", 9),
    Token(BodyOpen, "{", 11), Token(BodyClose, "}", 13)]

  lemma NameOperandAt2(s: State)
    requires s.index == 2
    ensures ParseValue(TrailingIf, s).Ok? && ParseValue(TrailingIf, s).value.index == 3
  {
    assert ParseCall(TrailingIf, s).Fail?;
    assert ParseOperand(TrailingIf, s).Ok? && ParseOperand(TrailingIf, s).value.index == 3;
    assert ParseTerm(TrailingIf, s).Ok? && ParseTerm(TrailingIf, s).value.index == 3;
  }

  lemma LiteralAt4(s: State)
    requires s.index == 4
    ensures ParseValue(TrailingIf, s).Ok? && ParseValue(TrailingIf, s).value.index == 5
  {
    assert ParseTerm(TrailingIf, s).Ok? && ParseTerm(TrailingIf, s).value.index == 5;
  }

  lemma LeftSideAt2(s: State)
    requires s.index == 2
    ensures ParseSide(TrailingIf, s).Ok? && ParseSide(TrailingIf, s).value.1.index == 3
  {
    NameOperandAt2(s.(tree := Push(Alloc(s.tree, ConditionSide), |s.tree.arena|)));
  }

  lemma RightSideAt4(s: State)
    requires s.index == 4
    ensures ParseSide(TrailingIf, s).Ok? && ParseSide(TrailingIf, s).value.1.index == 5
  {
    LiteralAt4(s.(tree := Push(Alloc(s.tree, ConditionSide), |s.tree.arena|)));
  }

  lemma ConditionAt2(s: State)
    requires s.index == 2
    ensures ParseCondition(TrailingIf, s).Ok? && ParseCondition(TrailingIf, s).value.1.index == 5
  {
    LeftSideAt2(s);
    var left := ParseSide(TrailingIf, s).value.1;
    RightSideAt4(left.(index := 4));
  }

  lemma EmptyBlockAt6(s: State)
    requires s.index == 6
    ensures ParseBlock(TrailingIf, s).Ok? && ParseBlock(TrailingIf, s).value.index == 8
  {
    assert ParseExpr(TrailingIf, s.(index := 7)) == Ok(s.(index := 7, errors := []));
  }

  /** The branch itself parses up to the end of input and then fails on
      the probe for ELSE. */
  lemma TrailingIfBranchFails(s: State)
    requires s.index == 0
    ensures ParseIf(TrailingIf, s).Fail? && ParseIf(TrailingIf, s).st.index == |TrailingIf|
    ensures ParseIf(TrailingIf, s).msg == EndOfInput
  {
    var b := |s.tree.arena|;
    var s1 := s.(tree := AddAndPush(s.tree, BranchNode(None, None)));
    ExpectAt(s1, IfOp);
    var s2 := CheckAndStep(TrailingIf, s1, IfOp).value.1;
    ExpectAt(s2, BracedOpen);
    var s3 := CheckAndStep(TrailingIf, s2, BracedOpen).value.1;
    ConditionAt2(s3);
    var c := ParseCondition(TrailingIf, s3).value;
    var s4 := c.1.(tree := SetKind(c.1.tree, b, BranchNode(Some(c.0), None)));
    ThenBlock(s4);
    var s6 := ParseBlock(TrailingIf, CheckAndStep(TrailingIf, s4, BracedClose).value.1).value;
    assert ParseElse(TrailingIf, s6, b, c.0).Fail? && ParseElse(TrailingIf, s6, b, c.0).st.index == |TrailingIf|;
  }

  /** One expected token of the scenario is consumed. */
  lemma ExpectAt(s: State, kind: Terminal)
    requires s.index < |TrailingIf| && TrailingIf[s.index].kind == kind
    ensures CheckAndStep(TrailingIf, s, kind).Ok?
    ensures CheckAndStep(TrailingIf, s, kind).value.1.index == s.index + 1
  {
  }

  /** `) { }` */
  lemma ThenBlock(s: State)
    requires s.index == 5
    ensures CheckAndStep(TrailingIf, s, BracedClose).Ok?
    ensures ParseBlock(TrailingIf, CheckAndStep(TrailingIf, s, BracedClose).value.1).Ok?
    ensures ParseBlock(TrailingIf, CheckAndStep(TrailingIf, s, BracedClose).value.1).value.index == 8
  {
    EmptyBlockAt6(s.(index := 6));
  }

  /** Every other statement production fails on the first token, before
      it has touched the log it was given. */
  lemma OtherStatementFails(s: State, rule: Rule)
    requires s.index == 0 && rule in StatementOrder && rule != IfRule
    ensures Apply(TrailingIf, s, rule).Fail? && Apply(TrailingIf, s, rule).st.errors == s.errors
  {
    match rule
    case BodyRule =>
      var s1 := s.(tree := AddAndPush(s.tree, BodyNode));
      assert ParseBlock(TrailingIf, s1).Fail? && ParseBlock(TrailingIf, s1).st.errors == s.errors;
      assert ParseBody(TrailingIf, s).Fail? && ParseBody(TrailingIf, s).st.errors == s.errors;
    case WhileRule =>
      assert ParseWhile(TrailingIf, s).Fail? && ParseWhile(TrailingIf, s).st.errors == s.errors;
    case CallStatementRule =>
      assert ParseCall(TrailingIf, s).Fail? && ParseCall(TrailingIf, s).st.errors == s.errors;
      assert ParseCallStatement(TrailingIf, s).Fail? && ParseCallStatement(TrailingIf, s).st.errors == s.errors;
    case VarDefRule =>
      assert ParseVarDef(TrailingIf, s).Fail? && ParseVarDef(TrailingIf, s).st.errors == s.errors;
    case VarAssignRule =>
      assert ParseVarAssign(TrailingIf, s).Fail? && ParseVarAssign(TrailingIf, s).st.errors == s.errors;
    case LineEndRule =>
  }

  lemma {:induction false} OtherStatementsFail(s: State, rules: seq<Rule>)
    requires s.index == 0
    requires forall i :: 0 <= i < |rules| ==> rules[i] in StatementOrder && rules[i] != IfRule
    ensures !TryInOrder(TrailingIf, s, rules).0 && TryInOrder(TrailingIf, s, rules).1.index == 0
    ensures forall e :: e in s.errors ==> e in TryInOrder(TrailingIf, s, rules).1.errors
    decreases |rules|
  {
    if rules != [] {
      OtherStatementFails(s, rules[0]);
      OtherStatementsFail(TryStep(TrailingIf, s, rules[0]).1, rules[1..]);
    }
  }

  /** No statement production parses the trailing branch, and the log holds
      the branch's failure at the end of input. */
  lemma TrailingIfStatementsFail()
    ensures !TryInOrder(TrailingIf, InitialState(), StatementOrder).0
    ensures ErrorRecord(|TrailingIf|, EndOfInput) in TryInOrder(TrailingIf, InitialState(), StatementOrder).1.errors
  {
    var tokens := TrailingIf;
    var s0 := InitialState();
    OtherStatementFails(s0, VarDefRule);
    var t1 := TryStep(tokens, s0, VarDefRule).1;
    OtherStatementFails(t1, VarAssignRule);
    var t2 := TryStep(tokens, t1, VarAssignRule).1;
    assert StatementOrder[1..][1..] == StatementOrder[2..];
    assert TryInOrder(tokens, s0, StatementOrder) == TryInOrder(tokens, t2, StatementOrder[2..]);
    TrailingIfAlternatives(t2);
  }

  lemma TrailingIfAlternatives(s: State)
    requires s.index == 0
    ensures !TryInOrder(TrailingIf, s, StatementOrder[2..]).0
    ensures ErrorRecord(|TrailingIf|, EndOfInput) in TryInOrder(TrailingIf, s, StatementOrder[2..]).1.errors
  {
    IfStepLogs(s);
    var t3 := TryStep(TrailingIf, s, IfRule).1;
    assert StatementOrder[2..][1..] == StatementOrder[3..];
    OtherStatementsFail(t3, StatementOrder[3..]);
  }

  /** The speculative branch attempt fails and logs the end of input. */
  lemma IfStepLogs(s: State)
    requires s.index == 0
    ensures !TryStep(TrailingIf, s, IfRule).0 && TryStep(TrailingIf, s, IfRule).1.index == 0
    ensures ErrorRecord(|TrailingIf|, EndOfInput) in TryStep(TrailingIf, s, IfRule).1.errors
  {
    TrailingIfBranchFails(s);
    var t3 := TryStep(TrailingIf, s, IfRule).1;
    assert t3.errors[|t3.errors| - 1] == ErrorRecord(|TrailingIf|, EndOfInput);
  }

  /** A branch without else as the last statement makes the whole run fail:
      the probe for ELSE reads past the end, that failure is the furthest
      one recorded, and recovery cannot read the token at its position. */
  lemma TrailingIfFailsRun()
    ensures Run(TrailingIf).Fail? && Run(TrailingIf).msg == EndOfInput
  {
    var tokens := TrailingIf;
    var s0 := InitialState();
    TrailingIfStatementsFail();
    var t := TryInOrder(tokens, s0, StatementOrder).1;
    RecoverJumpsPastFurthest(tokens, 0, t);
  }
}

=== FILE: shapes.dfy ===
/** What the productions attach to the context they start in: every
    successful statement adds exactly one node (a variable definition with
    an initializer adds two siblings, an empty statement none), a value adds
    a flat operand/operator chain with no precedence nesting, and a call
    node never receives more than one argument. */
module ParserShapes {
  import opened Tokens
  import opened ErrorLog
  import opened ParseState
  import opened Parser
  import opened ParserFrames

  /** Node kinds an unparenthesised operand attaches: a variable name, a
      constant or a call. */
  predicate IsPlainOperand(k: NodeKind) {
    k.VarNameNode? || k.ConstantNode? || k.CallNode?
  }

  /** Node kinds that stand for one operand of a value: a plain operand or
      a parenthesised value. */
  predicate IsOperand(k: NodeKind) {
    IsPlainOperand(k) || k.ValueBody?
  }

  /** `ids` alternate operand, operator, operand, ..., operand. */
  predicate FlatChain(arena: seq<Node>, ids: seq<nat>) {
    && |ids| % 2 == 1
    && forall i :: 0 <= i < |ids| ==>
         ids[i] < |arena| && if i % 2 == 0 then IsOperand(arena[ids[i]].kind) else arena[ids[i]].kind.MathOperationNode?
  }

  /** What the optional MATH_OP value after an operand attaches: nothing,
      or an operator followed by a flat chain. */
  predicate TailChain(arena: seq<Node>, ids: seq<nat>) {
    ids == [] || (ids[0] < |arena| && arena[ids[0]].kind.MathOperationNode? && FlatChain(arena, ids[1..]))
  }

  /** A successful step attached exactly one node, of a kind `ok` accepts. */
  predicate AttachedOne(s: Tree, t: Tree, ok: NodeKind -> bool) {
    Grows(s, t) && |Attached(s, t)| == 1 && ok(t.arena[Attached(s, t)[0]].kind)
  }

  lemma ChainPrepend(arena: seq<Node>, x: nat, ids: seq<nat>)
    requires x < |arena| && IsOperand(arena[x].kind) && TailChain(arena, ids)
    ensures FlatChain(arena, [x] + ids)
  {
    var c := [x] + ids;
    if ids != [] {
      forall i | 0 <= i < |c|
        ensures c[i] < |arena| && if i % 2 == 0 then IsOperand(arena[c[i]].kind) else arena[c[i]].kind.MathOperationNode?
      {
        if i >= 2 {
          assert c[i] == ids[1..][i - 2];
        }
      }
    }
  }

  /** Nodes `lo` up to `hi` are the same in both arenas. */
  predicate Same(a: seq<Node>, b: seq<Node>, lo: nat, hi: nat) {
    hi <= |a| && hi <= |b| && forall i :: lo <= i < hi ==> b[i] == a[i]
  }

  /** A flat chain whose nodes all lie in `lo` up to `hi`. */
  predicate ChainWithin(arena: seq<Node>, ids: seq<nat>, lo: nat, hi: nat) {
    FlatChain(arena, ids) && forall k :: 0 <= k < |ids| ==> lo <= ids[k] < hi
  }

  /** One side of a condition: a ConditionSide node holding a flat chain
      created after it. */
  predicate SideWithin(arena: seq<Node>, id: nat, lo: nat, hi: nat) {
    && lo <= id < hi <= |arena|
    && arena[id].kind == ConditionSide
    && ChainWithin(arena, arena[id].children, id + 1, hi)
  }

  /** A condition node whose two sides were created before it. */
  predicate ConditionWithin(arena: seq<Node>, c: nat, lo: nat, hi: nat) {
    && lo <= c < hi <= |arena|
    && arena[c].kind.ConditionNode?
    && SideWithin(arena, arena[c].kind.left, lo, c)
    && SideWithin(arena, arena[c].kind.right, lo, c)
  }

  /** A step leaves every node alone except the context it ran in. */
  lemma GrowsSame(s: Tree, t: Tree, lo: nat, hi: nat)
    requires Grows(s, t) && hi <= |s.arena| && (Top(s) < lo || hi <= Top(s))
    ensures Same(s.arena, t.arena, lo, hi)
  {
  }

  lemma ChainSame(a: seq<Node>, b: seq<Node>, ids: seq<nat>, lo: nat, hi: nat)
    requires ChainWithin(a, ids, lo, hi) && Same(a, b, lo, hi)
    ensures ChainWithin(b, ids, lo, hi)
  {
    forall k | 0 <= k < |ids|
      ensures b[ids[k]] == a[ids[k]]
    {
    }
  }

  lemma SideSame(a: seq<Node>, b: seq<Node>, id: nat, lo: nat, hi: nat)
    requires SideWithin(a, id, lo, hi) && Same(a, b, lo, hi)
    ensures SideWithin(b, id, lo, hi)
  {
    ChainSame(a, b, a[id].children, id + 1, hi);
  }

  lemma ConditionSame(a: seq<Node>, b: seq<Node>, c: nat, lo: nat, hi: nat)
    requires ConditionWithin(a, c, lo, hi) && Same(a, b, lo, hi)
    ensures ConditionWithin(b, c, lo, hi)
  {
    SideSame(a, b, a[c].kind.left, lo, c);
    SideSame(a, b, a[c].kind.right, lo, c);
  }

  // ---------------------------------------------------------------------
  // Values

  /** An operand followed, in the same context, by a tail chain forms one
      flat chain. */
  lemma OperandThenTail(s: Tree, t: Tree, u: Tree)
    requires AttachedOne(s, t, IsOperand) && Top(t) == Top(s)
    requires Grows(t, u) && TailChain(u.arena, Attached(t, u))
    ensures Grows(s, u) && FlatChain(u.arena, Attached(s, u))
  {
    AttachedTrans(s, t, u);
    var x := Attached(s, t)[0];
    assert u.arena[x] == t.arena[x];
    ChainPrepend(u.arena, x, Attached(t, u));
  }

  lemma {:induction false} ValueShape(tokens: seq<Token>, s: State)
    requires WellFormed(s.tree) && s.index <= |tokens|
    ensures ParseValue(tokens, s).Ok? ==>
              Grows(s.tree, ParseValue(tokens, s).value.tree)
              && FlatChain(ParseValue(tokens, s).value.tree.arena, Attached(s.tree, ParseValue(tokens, s).value.tree))
    decreases |tokens| - s.index, 6, 0
  {
    TermShape(tokens, s);
    TermFrame(tokens, s);
    var r1 := ParseTerm(tokens, s);
    if r1.Ok? {
      ValueTailShape(tokens, r1.value);
      var r2 := ParseValueTail(tokens, r1.value);
      if r2.Ok? {
        OperandThenTail(s.tree, r1.value.tree, r2.value.tree);
      }
    }
  }

  lemma {:induction false} ValueTailShape(tokens: seq<Token>, s: State)
    requires WellFormed(s.tree) && s.index <= |tokens|
    ensures ParseValueTail(tokens, s).Ok? ==>
              Grows(s.tree, ParseValueTail(tokens, s).value.tree)
              && TailChain(ParseValueTail(tokens, s).value.tree.arena, Attached(s.tree, ParseValueTail(tokens, s).value.tree))
    decreases |tokens| - s.index, 1, 0
  {
    GrowsRefl(s.tree);
    var op := StepIf(tokens, s, MathOp);
    if op.Ok? && op.value.0 {
      var kind := MathOperationNode(tokens[s.index].text);
      var s1 := op.value.1.(tree := AddNode(s.tree, kind));
      AddNodeGrows(s.tree, kind);
      ValueShape(tokens, s1);
      var r2 := ParseValue(tokens, s1);
      if r2.Ok? {
        var t := r2.value.tree;
        AttachedTrans(s.tree, s1.tree, t);
        var o := |s.tree.arena|;
        assert t.arena[o] == s1.tree.arena[o];
        assert Attached(s.tree, t) == [o] + Attached(s1.tree, t);
        assert Attached(s.tree, t)[1..] == Attached(s1.tree, t);
      }
    }
  }

  lemma {:induction false} TermShape(tokens: seq<Token>, s: State)
    requires WellFormed(s.tree) && s.index <= |tokens|
    ensures ParseTerm(tokens, s).Ok? ==> AttachedOne(s.tree, ParseTerm(tokens, s).value.tree, IsOperand)
    decreases |tokens| - s.index, 5, 0
  {
    var open := StepIf(tokens, s, BracedOpen);
    if open.Ok? {
      if open.value.0 {
        ParenthesizedShape(tokens, open.value.1);
      } else {
        OperandShape(tokens, s);
        if ParseOperand(tokens, s).Ok? {
          PlainIsOperand(s.tree, ParseOperand(tokens, s));
        }
      }
    }
  }

  lemma PlainIsOperand(s: Tree, r: Res<State>)
    requires r.Ok? && AttachedOne(s, r.value.tree, IsPlainOperand)
    ensures AttachedOne(s, r.value.tree, IsOperand)
  {
  }

  lemma {:induction false} ParenthesizedShape(tokens: seq<Token>, s: State)
    requires WellFormed(s.tree) && s.index <= |tokens|
    ensures ParseParenthesized(tokens, s).Ok? ==>
              AttachedOne(s.tree, ParseParenthesized(tokens, s).value.tree, (k: NodeKind) => k == ValueBody)
    decreases |tokens| - s.index, 7, 0
  {
    var s1 := s.(tree := AddAndPush(s.tree, ValueBody));
    AddAndPushGrows(s.tree, ValueBody);
    ValueFrame(tokens, s1);
    var r2 := ParseValue(tokens, s1);
    if r2.Ok? {
      AttachedNested(s.tree, s1.tree, r2.value.tree);
      var p3 := CheckAndStep(tokens, r2.value, BracedClose);
      if p3.Ok? {
        PopGrows(s.tree, p3.value.1.tree);
      }
    }
  }

  lemma {:induction false} OperandShape(tokens: seq<Token>, s: State)
    requires WellFormed(s.tree) && s.index <= |tokens|
    ensures ParseOperand(tokens, s).Ok? ==> AttachedOne(s.tree, ParseOperand(tokens, s).value.tree, IsPlainOperand)
    decreases |tokens| - s.index, 4, 0
  {
    var isName := Check(tokens, s, Name);
    if isName.Ok? {
      if isName.value {
        NameOperandShape(tokens, s);
      } else {
        AddNodeGrows(s.tree, ConstantNode(tokens[s.index].text, tokens[s.index].kind));
      }
    }
  }

  /** Under a NAME the operand is the CallNode named by it when the attempt
      succeeds, and otherwise the VarNameNode for it, added after the
      rollback. Either way it is the one node attached. */
  lemma {:induction false} NameOperandShape(tokens: seq<Token>, s: State)
    requires WellFormed(s.tree) && s.index <= |tokens|
    ensures var (called, t) := TryStep(tokens, s, CallRule);
            if called then
              && s.index < |tokens| && |s.tree.arena| < |t.tree.arena|
              && Grows(s.tree, t.tree) && Attached(s.tree, t.tree) == [|s.tree.arena|]
              && t.tree.arena[|s.tree.arena|].kind == CallNode(tokens[s.index].text)
            else
              t.index < |tokens| ==>
                var u := AddNode(t.tree, VarNameNode(tokens[t.index].text));
                && t.index == s.index && Grows(s.tree, u) && Attached(s.tree, u) == [|t.tree.arena|]
                && u.arena[|t.tree.arena|].kind == VarNameNode(tokens[s.index].text)
    decreases |tokens| - s.index, 3, 0
  {
    TryStepFrame(tokens, s, CallRule);
    var (called, t) := TryStep(tokens, s, CallRule);
    if called {
      CallShape(tokens, s);
    } else if t.index < |tokens| {
      NameAfterFailedCall(s.tree, t.tree, VarNameNode(tokens[t.index].text));
    }
  }

  /** A call attempt that rolled back leaves the context as it was, so the
      name is the one node attached. */
  lemma NameAfterFailedCall(s: Tree, t: Tree, kind: NodeKind)
    requires Grows(s, t) && t.stack == s.stack && t.arena[..|s.arena|] == s.arena
    ensures Grows(s, AddNode(t, kind)) && Attached(s, AddNode(t, kind)) == [|t.arena|]
    ensures AddNode(t, kind).arena[|t.arena|].kind == kind
  {
    assert t.arena[Top(s)] == s.arena[Top(s)];
    AddNodeGrows(t, kind);
    AttachedTrans(s, t, AddNode(t, kind));
  }

  // ---------------------------------------------------------------------
  // Calls

  /** A successful call attaches one CallNode named by its first token, and
      that node holds at most one argument. */
  lemma {:induction false} CallShape(tokens: seq<Token>, s: State)
    requires WellFormed(s.tree) && s.index <= |tokens|
    ensures ParseCall(tokens, s).Ok? ==>
              var t := ParseCall(tokens, s).value.tree;
              && Grows(s.tree, t) && Attached(s.tree, t) == [|s.tree.arena|]
              && s.index < |tokens| && |s.tree.arena| < |t.arena|
              && t.arena[|s.tree.arena|].kind == CallNode(tokens[s.index].text)
              && |t.arena[|s.tree.arena|].children| <= 1
    decreases |tokens| - s.index, 1, 0
  {
    var p1 := CheckAndStep(tokens, s, Name);
    if p1.Ok? {
      var p2 := CheckAndStep(tokens, p1.value.1, BracedOpen);
      if p2.Ok? {
        var s2 := p2.value.1;
        var s3 := s2.(tree := AddAndPush(s2.tree, CallNode(p1.value.0)));
        AddAndPushGrows(s2.tree, CallNode(p1.value.0));
        CallRestFrame(tokens, s2.tree, s3);
        CallRestShape(tokens, s3);
      }
    }
  }

  /** After the opening parenthesis the call node keeps its kind and gains
      at most one child. */
  lemma {:induction false} CallRestShape(tokens: seq<Token>, s: State)
    requires WellFormed(s.tree) && s.index <= |tokens|
    ensures ParseCallRest(tokens, s).Ok? ==>
              var t := ParseCallRest(tokens, s).value.tree;
              && Top(s.tree) < |t.arena|
              && t.arena[Top(s.tree)].kind == s.tree.arena[Top(s.tree)].kind
              && |t.arena[Top(s.tree)].children| <= |s.tree.arena[Top(s.tree)].children| + 1
    decreases |tokens| - s.index, 8, 0
  {
    var closed := Check(tokens, s, BracedClose);
    if closed.Ok? && !closed.value {
      ArgsShape(tokens, s);
    }
  }

  /** The argument loop succeeds only with exactly one argument, in its
      own ValueBody, and stops before a token that is not a comma. */
  lemma {:induction false} ArgsShape(tokens: seq<Token>, s: State)
    requires WellFormed(s.tree) && s.index <= |tokens|
    ensures ParseArgs(tokens, s).Ok? ==>
              && AttachedOne(s.tree, ParseArgs(tokens, s).value.tree, (k: NodeKind) => k == ValueBody)
              && ParseArgs(tokens, s).value.index < |tokens|
              && tokens[ParseArgs(tokens, s).value.index].kind != Comma
    decreases |tokens| - s.index, 7, 0
  {
    var s1 := s.(tree := AddAndPush(s.tree, ValueBody));
    AddAndPushGrows(s.tree, ValueBody);
    ValueFrame(tokens, s1);
    var r2 := ParseValue(tokens, s1);
    if r2.Ok? {
      AttachedNested(s.tree, s1.tree, r2.value.tree);
      PopGrows(s.tree, r2.value.tree);
      var s3 := r2.value.(tree := Pop(r2.value.tree));
      var more := Check(tokens, s3, Comma);
      if more.Ok? && more.value {
        ArgsAtCommaFails(tokens, s3);
      }
    }
  }

  /** A value can only start with an opening parenthesis, a name or a
      literal. */
  lemma ValueNeedsStart(tokens: seq<Token>, s: State)
    requires s.index <= |tokens|
    ensures ParseValue(tokens, s).Ok? ==> s.index < |tokens| && StartsValue(tokens[s.index].kind)
  {
    if s.index < |tokens| && !StartsValue(tokens[s.index].kind) {
      assert ParseOperand(tokens, s).Fail?;
      assert ParseTerm(tokens, s).Fail?;
    }
  }

  /** The repetition of the argument loop starts a value at the comma it
      did not consume, and so always fails. */
  lemma ArgsAtCommaFails(tokens: seq<Token>, s: State)
    requires s.index < |tokens| && tokens[s.index].kind == Comma
    ensures ParseArgs(tokens, s).Fail?
  {
    ValueNeedsStart(tokens, s.(tree := AddAndPush(s.tree, ValueBody)));
  }

  // ---------------------------------------------------------------------
  // Statements

  /** Node `n` is the current, still childless context of `sb`, and its
      children in `arena` are exactly the nodes that the block parsed from
      `sb` attached to it. */
  predicate BlockFilled(tokens: seq<Token>, sb: State, n: nat, arena: seq<Node>) {
    && sb.index <= |tokens| && WellFormed(sb.tree) && Top(sb.tree) == n
    && n < |sb.tree.arena| && sb.tree.arena[n].children == []
    && ParseBlock(tokens, sb).Ok? && Grows(sb.tree, ParseBlock(tokens, sb).value.tree)
    && n < |arena| && arena[n].children == Attached(sb.tree, ParseBlock(tokens, sb).value.tree)
  }

  lemma {:induction false} BodyShape(tokens: seq<Token>, s: State)
    requires WellFormed(s.tree) && s.index <= |tokens|
    ensures ParseBody(tokens, s).Ok? ==>
              && AttachedOne(s.tree, ParseBody(tokens, s).value.tree, (k: NodeKind) => k == BodyNode)
              && BlockFilled(tokens, s.(tree := AddAndPush(s.tree, BodyNode)), |s.tree.arena|, ParseBody(tokens, s).value.tree.arena)
  {
    var s1 := s.(tree := AddAndPush(s.tree, BodyNode));
    AddAndPushGrows(s.tree, BodyNode);
    BlockFrame(tokens, s1);
    var r2 := ParseBlock(tokens, s1);
    if r2.Ok? {
      AttachedNested(s.tree, s1.tree, r2.value.tree);
      PopGrows(s.tree, r2.value.tree);
      BlockFills(tokens, s1, |s.tree.arena|);
    }
  }

  /** A block parsed in a fresh, childless context fills exactly that
      context's children. */
  lemma {:induction false} BlockFills(tokens: seq<Token>, sb: State, n: nat)
    requires sb.index <= |tokens| && WellFormed(sb.tree) && Top(sb.tree) == n
    requires n < |sb.tree.arena| && sb.tree.arena[n].children == []
    requires ParseBlock(tokens, sb).Ok?
    ensures n < |ParseBlock(tokens, sb).value.tree.arena|
    ensures BlockFilled(tokens, sb, n, ParseBlock(tokens, sb).value.tree.arena)
  {
    BlockFrame(tokens, sb);
  }

  /** A context opened with `kind` receives, as its own children, exactly
      the flat chain the value attaches. */
  lemma ValueInside(tokens: seq<Token>, s: State, kind: NodeKind)
    requires WellFormed(s.tree) && s.index <= |tokens|
    ensures var s1 := s.(tree := AddAndPush(s.tree, kind));
            ParseValue(tokens, s1).Ok? ==>
              var t := ParseValue(tokens, s1).value.tree;
              && Grows(s.tree, Pop(t)) && Attached(s.tree, Pop(t)) == [|s.tree.arena|]
              && Pop(t).stack == s.tree.stack
              && t.arena[|s.tree.arena|].kind == kind
              && ChainWithin(t.arena, t.arena[|s.tree.arena|].children, |s.tree.arena| + 1, |t.arena|)
  {
    var s1 := s.(tree := AddAndPush(s.tree, kind));
    ValueFrame(tokens, s1);
    ValueShape(tokens, s1);
    var r2 := ParseValue(tokens, s1);
    if r2.Ok? {
      ContainerClosed(s.tree, kind, r2.value.tree);
    }
  }

  /** Closing a fresh container whose content is a flat chain of nodes
      created after it. */
  lemma ContainerClosed(s: Tree, kind: NodeKind, t: Tree)
    requires WellFormed(s)
    requires Framed(AddAndPush(s, kind), Ok(State(0, t, [], [])))
    requires FlatChain(t.arena, Attached(AddAndPush(s, kind), t))
    ensures Grows(s, Pop(t)) && Attached(s, Pop(t)) == [|s.arena|]
    ensures Pop(t).stack == s.stack
    ensures t.arena[|s.arena|].kind == kind
    ensures ChainWithin(t.arena, t.arena[|s.arena|].children, |s.arena| + 1, |t.arena|)
  {
    var s1 := AddAndPush(s, kind);
    AddAndPushGrows(s, kind);
    AttachedNested(s, s1, t);
    PopGrows(s, t);
    assert Attached(s1, t) == t.arena[|s.arena|].children;
  }

  /** A side is a fresh ConditionSide node, owned rather than attached,
      holding the flat chain of its value; the context it was parsed in is
      left exactly as it was. */
  lemma SideShape(tokens: seq<Token>, s: State)
    requires WellFormed(s.tree) && s.index <= |tokens|
    ensures ParseSide(tokens, s).Ok? ==>
              var (side, t) := ParseSide(tokens, s).value;
              && side == |s.tree.arena| && SideWithin(t.tree.arena, side, side, |t.tree.arena|)
              && Top(s.tree) < |t.tree.arena| && t.tree.arena[Top(s.tree)] == s.tree.arena[Top(s.tree)]
  {
    var side := |s.tree.arena|;
    var s1 := s.(tree := Push(Alloc(s.tree, ConditionSide), side));
    ValueFrame(tokens, s1);
    ValueShape(tokens, s1);
    var r2 := ParseValue(tokens, s1);
    if r2.Ok? {
      var t := r2.value.tree;
      assert Attached(s1.tree, t) == t.arena[side].children;
      assert t.arena[Top(s.tree)] == s1.tree.arena[Top(s.tree)];
    }
  }

  /** Joining a finished left side and a right side parsed after it. */
  lemma ConditionJoin(lo: nat, lt: Tree, rt: Tree, l: nat, r: nat, op: string)
    requires SideWithin(lt.arena, l, lo, |lt.arena|)
    requires Grows(lt, rt) && Top(lt) < lo
    requires r == |lt.arena| && SideWithin(rt.arena, r, r, |rt.arena|)
    ensures ConditionWithin(Alloc(rt, ConditionNode(l, op, r)).arena, |rt.arena|, lo, |rt.arena| + 1)
  {
    GrowsSame(lt, rt, lo, |lt.arena|);
    SideSame(lt.arena, rt.arena, l, lo, |lt.arena|);
    var t := Alloc(rt, ConditionNode(l, op, r));
    var c := |rt.arena|;
    assert Same(rt.arena, t.arena, lo, c);
    SideSame(rt.arena, t.arena, l, lo, c);
    SideSame(rt.arena, t.arena, r, lo, c);
  }

  /** A condition is a fresh ConditionNode, owned rather than attached,
      whose two sides each hold a flat chain, the left one created first,
      and whose operator is the text of the CONDITION_OP token between
      them; the context it was parsed in is left exactly as it was. */
  lemma ConditionShape(tokens: seq<Token>, s: State)
    requires WellFormed(s.tree) && s.index <= |tokens|
    ensures ParseCondition(tokens, s).Ok? ==>
              var (c, t) := ParseCondition(tokens, s).value;
              && c + 1 == |t.tree.arena| && ConditionWithin(t.tree.arena, c, |s.tree.arena|, c + 1)
              && Top(s.tree) < |t.tree.arena| && t.tree.arena[Top(s.tree)] == s.tree.arena[Top(s.tree)]
              && t.tree.arena[c].kind.left == |s.tree.arena| < t.tree.arena[c].kind.right
              && ParseSide(tokens, s).Ok?
              && var mid := ParseSide(tokens, s).value.1.index;
                 && mid < |tokens| && tokens[mid].kind == ConditionOp
                 && t.tree.arena[c].kind.op == tokens[mid].text
  {
    if ParseCondition(tokens, s).Ok? {
      var left := ParseSide(tokens, s);
      assert left.Ok?;
      var op := CheckAndStep(tokens, left.value.1, ConditionOp);
      assert op.Ok?;
      var s2 := op.value.1;
      var right := ParseSide(tokens, s2);
      assert right.Ok?;
      var rt := right.value.1.tree;
      assert ParseCondition(tokens, s) == Ok((|rt.arena|, right.value.1.(tree := Alloc(rt, ConditionNode(left.value.0, op.value.0, right.value.0)))));
      SideFrame(tokens, s);
      SideShape(tokens, s);
      SideFrame(tokens, s2);
      SideShape(tokens, s2);
      ConditionJoin(|s.tree.arena|, s2.tree, rt, left.value.0, right.value.0, op.value.0);
    }
  }

  /** Storing the condition in the loop or branch node `n` keeps what was
      attached and the condition itself. */
  lemma HeaderSet(s0: Tree, h: Tree, n: nat, c: nat, kind: NodeKind)
    requires Grows(s0, h) && Attached(s0, h) == [n] && n == |s0.arena| && h.stack == s0.stack + [n]
    requires ConditionWithin(h.arena, c, n + 1, c + 1)
    ensures var u := SetKind(h, n, kind);
            && Grows(s0, u) && Attached(s0, u) == [n] && u.stack == h.stack
            && u.arena[n].kind == kind && ConditionWithin(u.arena, c, n + 1, c + 1)
  {
    var u := SetKind(h, n, kind);
    FreshEdit(s0, h, u);
    assert Same(h.arena, u.arena, n + 1, c + 1);
    ConditionSame(h.arena, u.arena, c, n + 1, c + 1);
  }

  /** The block of a loop or branch goes into node `n`, leaving its kind
      and its condition alone. */
  lemma {:induction false} BlockInside(tokens: seq<Token>, s0: Tree, st: State, n: nat, c: nat)
    requires Grows(s0, st.tree) && Attached(s0, st.tree) == [n] && n == |s0.arena|
    requires st.tree.stack == s0.stack + [n] && st.index <= |tokens|
    requires ConditionWithin(st.tree.arena, c, n + 1, c + 1)
    ensures ParseBlock(tokens, st).Ok? ==>
              var t := ParseBlock(tokens, st).value.tree;
              && Grows(s0, t) && Attached(s0, t) == [n] && t.stack == s0.stack + [n]
              && n < |st.tree.arena| && n < |t.arena| && t.arena[n].kind == st.tree.arena[n].kind
              && ConditionWithin(t.arena, c, n + 1, c + 1)
  {
    BlockFrame(tokens, st);
    var r := ParseBlock(tokens, st);
    if r.Ok? {
      var t := r.value.tree;
      AttachedNested(s0, st.tree, t);
      GrowsSame(st.tree, t, n + 1, c + 1);
      ConditionSame(st.tree.arena, t.arena, c, n + 1, c + 1);
    }
  }

  /** A loop attaches one WhileNode whose condition field holds a condition
      created after it, and whose children are exactly what the loop's
      block attached. */
  lemma {:induction false} WhileShape(tokens: seq<Token>, s: State)
    requires WellFormed(s.tree) && s.index <= |tokens|
    ensures ParseWhile(tokens, s).Ok? ==>
              var t := ParseWhile(tokens, s).value.tree;
              var w := |s.tree.arena|;
              && Grows(s.tree, t) && Attached(s.tree, t) == [w] && w < |t.arena|
              && t.arena[w].kind.WhileNode? && t.arena[w].kind.condition.Some?
              && ConditionWithin(t.arena, t.arena[w].kind.condition.value, w + 1, t.arena[w].kind.condition.value + 1)
              && WhileHead(tokens, s).Ok? && BlockFilled(tokens, WhileHead(tokens, s).value.1, w, t.arena)
  {
    if ParseWhile(tokens, s).Ok? {
      var w := |s.tree.arena|;
      var h := WhileHead(tokens, s);
      assert h.Ok?;
      var r6 := ParseBlock(tokens, h.value.1);
      assert r6.Ok?;
      assert ParseWhile(tokens, s) == Ok(r6.value.(tree := Pop(r6.value.tree)));
      WhileHeadShape(tokens, s);
      BlockInside(tokens, s.tree, h.value.1, w, h.value.0);
      PopGrows(s.tree, r6.value.tree);
      BlockFills(tokens, h.value.1, w);
    }
  }

  /** The state the else-block starts in, given the state `th` the
      then-block leaves: past the ELSE keyword, with the else body opened
      under branch `b`. */
  function ElseEntry(th: State, b: nat, cond: nat): State {
    th.(index := th.index + 1, tree := OpenElse(th.tree, b, cond))
  }

  /** `BlockFilled` reads only node `n` of the arena, so it survives any
      later step that leaves that node's children alone. */
  lemma BlockFilledKept(tokens: seq<Token>, sb: State, n: nat, arena: seq<Node>, arena': seq<Node>)
    requires BlockFilled(tokens, sb, n, arena)
    requires n < |arena'| && arena'[n].children == arena[n].children
    ensures BlockFilled(tokens, sb, n, arena')
  {
  }

  /** The loop's head leaves the fresh loop node, with its condition set
      and no children yet, as the current context. */
  lemma {:induction false} WhileHeadShape(tokens: seq<Token>, s: State)
    requires WellFormed(s.tree) && s.index <= |tokens|
    ensures WhileHead(tokens, s).Ok? ==>
              var (cond, h) := WhileHead(tokens, s).value;
              var w := |s.tree.arena|;
              && Grows(s.tree, h.tree) && Attached(s.tree, h.tree) == [w] && h.tree.stack == s.tree.stack + [w]
              && h.tree.arena[w] == Node(WhileNode(Some(cond)), [])
              && ConditionWithin(h.tree.arena, cond, w + 1, cond + 1)
  {
    if WhileHead(tokens, s).Ok? {
      var w := |s.tree.arena|;
      var s1 := s.(tree := AddAndPush(s.tree, WhileNode(None)));
      AddAndPushGrows(s.tree, WhileNode(None));
      var p2 := CheckAndStep(tokens, s1, WhileOp);
      assert p2.Ok?;
      var p3 := CheckAndStep(tokens, p2.value.1, BracedOpen);
      assert p3.Ok?;
      var s3 := p3.value.1;
      var c := ParseCondition(tokens, s3);
      assert c.Ok?;
      var s4 := c.value.1.(tree := SetKind(c.value.1.tree, w, WhileNode(Some(c.value.0))));
      var p5 := CheckAndStep(tokens, s4, BracedClose);
      assert p5.Ok?;
      assert WhileHead(tokens, s) == Ok((c.value.0, p5.value.1));
      ConditionFrame(tokens, s3);
      ConditionShape(tokens, s3);
      AttachedNested(s.tree, s3.tree, c.value.1.tree);
      HeaderSet(s.tree, c.value.1.tree, w, c.value.0, WhileNode(Some(c.value.0)));
    }
  }

  /** A branch attaches one BranchNode whose condition field holds a
      condition created after it and whose children are exactly what the
      then-block attached; its else field, when set, holds a BodyNode whose
      children are exactly what the else-block attached. */
  lemma {:induction false} IfShape(tokens: seq<Token>, s: State)
    requires WellFormed(s.tree) && s.index <= |tokens|
    ensures ParseIf(tokens, s).Ok? ==>
              var t := ParseIf(tokens, s).value.tree;
              var b := |s.tree.arena|;
              && Grows(s.tree, t) && Attached(s.tree, t) == [b] && b < |t.arena|
              && t.arena[b].kind.BranchNode? && t.arena[b].kind.condition.Some?
              && ConditionWithin(t.arena, t.arena[b].kind.condition.value, b + 1, t.arena[b].kind.condition.value + 1)
              && IfHead(tokens, s).Ok? && ParseBlock(tokens, IfHead(tokens, s).value.1).Ok?
              && BlockFilled(tokens, IfHead(tokens, s).value.1, b, t.arena)
              && (t.arena[b].kind.elseBody.Some? ==>
                    var th := ParseBlock(tokens, IfHead(tokens, s).value.1).value;
                    && t.arena[b].kind.elseBody.value < |t.arena|
                    && t.arena[t.arena[b].kind.elseBody.value].kind == BodyNode
                    && BlockFilled(tokens, ElseEntry(th, b, IfHead(tokens, s).value.0),
                                   t.arena[b].kind.elseBody.value, t.arena))
  {
    if ParseIf(tokens, s).Ok? {
      var b := |s.tree.arena|;
      var h := IfHead(tokens, s);
      assert h.Ok?;
      var r6 := ParseBlock(tokens, h.value.1);
      assert r6.Ok?;
      assert ParseIf(tokens, s) == ParseElse(tokens, r6.value, b, h.value.0);
      IfHeadShape(tokens, s);
      IfAfterHead(tokens, s.tree, h.value.1, b, h.value.0);
    }
  }

  /** The branch from its then-block on, started in the state its head
      leaves: the then-block fills the branch node and the else body, when
      there is one, is filled by the else-block. */
  lemma {:induction false} IfAfterHead(tokens: seq<Token>, s0: Tree, h: State, b: nat, cond: nat)
    requires Grows(s0, h.tree) && Attached(s0, h.tree) == [b] && b == |s0.arena|
    requires h.tree.stack == s0.stack + [b] && h.index <= |tokens|
    requires b < |h.tree.arena| && h.tree.arena[b] == Node(BranchNode(Some(cond), None), [])
    requires ConditionWithin(h.tree.arena, cond, b + 1, cond + 1)
    ensures ParseBlock(tokens, h).Ok? && ParseElse(tokens, ParseBlock(tokens, h).value, b, cond).Ok? ==>
              var th := ParseBlock(tokens, h).value;
              var t := ParseElse(tokens, th, b, cond).value.tree;
              && Grows(s0, t) && Attached(s0, t) == [b] && b < |t.arena|
              && t.arena[b].kind.BranchNode? && t.arena[b].kind.condition == Some(cond)
              && ConditionWithin(t.arena, cond, b + 1, cond + 1)
              && BlockFilled(tokens, h, b, t.arena)
              && (t.arena[b].kind.elseBody.Some? ==>
                    && t.arena[b].kind.elseBody.value < |t.arena|
                    && t.arena[t.arena[b].kind.elseBody.value].kind == BodyNode
                    && BlockFilled(tokens, ElseEntry(th, b, cond),
                                   t.arena[b].kind.elseBody.value, t.arena))
  {
    BlockInside(tokens, s0, h, b, cond);
    var r6 := ParseBlock(tokens, h);
    if r6.Ok? {
      BlockFills(tokens, h, b);
      ElseShape(tokens, s0, r6.value, b, cond);
      var r := ParseElse(tokens, r6.value, b, cond);
      if r.Ok? {
        BlockFilledKept(tokens, h, b, r6.value.tree.arena, r.value.tree.arena);
      }
    }
  }

  /** The branch's head leaves the fresh branch node, with its condition set,
      no else body and no children yet, as the current context. */
  lemma {:induction false} IfHeadShape(tokens: seq<Token>, s: State)
    requires WellFormed(s.tree) && s.index <= |tokens|
    ensures IfHead(tokens, s).Ok? ==>
              var (cond, h) := IfHead(tokens, s).value;
              var b := |s.tree.arena|;
              && Grows(s.tree, h.tree) && Attached(s.tree, h.tree) == [b] && h.tree.stack == s.tree.stack + [b]
              && h.tree.arena[b] == Node(BranchNode(Some(cond), None), [])
              && ConditionWithin(h.tree.arena, cond, b + 1, cond + 1)
  {
    if IfHead(tokens, s).Ok? {
      var b := |s.tree.arena|;
      var s1 := s.(tree := AddAndPush(s.tree, BranchNode(None, None)));
      AddAndPushGrows(s.tree, BranchNode(None, None));
      var p2 := CheckAndStep(tokens, s1, IfOp);
      assert p2.Ok?;
      var p3 := CheckAndStep(tokens, p2.value.1, BracedOpen);
      assert p3.Ok?;
      var s3 := p3.value.1;
      var c := ParseCondition(tokens, s3);
      assert c.Ok?;
      var s4 := c.value.1.(tree := SetKind(c.value.1.tree, b, BranchNode(Some(c.value.0), None)));
      var p5 := CheckAndStep(tokens, s4, BracedClose);
      assert p5.Ok?;
      assert IfHead(tokens, s) == Ok((c.value.0, p5.value.1));
      ConditionFrame(tokens, s3);
      ConditionShape(tokens, s3);
      AttachedNested(s.tree, s3.tree, c.value.1.tree);
      HeaderSet(s.tree, c.value.1.tree, b, c.value.0, BranchNode(Some(c.value.0), None));
    }
  }

  /** The else part is present exactly when an ELSE token follows the
      then-block, and it is a BodyNode stored in the branch node. */
  lemma {:induction false} ElseShape(tokens: seq<Token>, s0: Tree, s: State, b: nat, cond: nat)
    requires Grows(s0, s.tree) && Attached(s0, s.tree) == [b] && b == |s0.arena|
    requires s.tree.stack == s0.stack + [b] && s.index <= |tokens|
    requires ConditionWithin(s.tree.arena, cond, b + 1, cond + 1)
    requires s.tree.arena[b].kind == BranchNode(Some(cond), None)
    ensures ParseElse(tokens, s, b, cond).Ok? ==>
              var t := ParseElse(tokens, s, b, cond).value.tree;
              && Grows(s0, t) && Attached(s0, t) == [b]
              && s.index < |tokens| && b < |t.arena|
              && t.arena[b].kind.BranchNode? && t.arena[b].kind.condition == Some(cond)
              && ConditionWithin(t.arena, cond, b + 1, cond + 1)
              && (t.arena[b].kind.elseBody.Some? <==> tokens[s.index].kind == Else)
              && (t.arena[b].kind.elseBody.Some? ==>
                    && t.arena[b].kind.elseBody.value == |s.tree.arena| < |t.arena|
                    && t.arena[|s.tree.arena|].kind == BodyNode
                    && BlockFilled(tokens, ElseEntry(s, b, cond), |s.tree.arena|, t.arena))
              && t.arena[b].children == s.tree.arena[b].children
  {
    ElseFrame(tokens, s0, s, b, cond);
    var q := StepIf(tokens, s, Else);
    if q.Ok? && q.value.0 {
      var s1 := ElseEntry(s, b, cond);
      assert q.value.1.(tree := OpenElse(q.value.1.tree, b, cond)) == s1;
      ElseBlockShape(tokens, s.tree, s1, b, cond);
      var r2 := ParseBlock(tokens, s1);
      if r2.Ok? {
        assert ParseElse(tokens, s, b, cond) == Ok(r2.value.(tree := Pop(Pop(r2.value.tree))));
      }
    }
  }

  /** The else-body block leaves the condition and the branch's kind as
      `OpenElse` set them, and its own node is a BodyNode. */
  lemma {:induction false} ElseBlockShape(tokens: seq<Token>, t0: Tree, s1: State, b: nat, cond: nat)
    requires WellFormed(t0) && b < |t0.arena| && s1.index <= |tokens|
    requires ConditionWithin(t0.arena, cond, b + 1, cond + 1)
    requires s1.tree == OpenElse(t0, b, cond)
    ensures ParseBlock(tokens, s1).Ok? ==>
              var t := ParseBlock(tokens, s1).value.tree;
              && |t0.arena| < |t.arena| && t.arena[|t0.arena|].kind == BodyNode
              && t.arena[b].kind == BranchNode(Some(cond), Some(|t0.arena|))
              && ConditionWithin(t.arena, cond, b + 1, cond + 1)
              && t.arena[b].children == t0.arena[b].children
              && BlockFilled(tokens, s1, |t0.arena|, t.arena)
  {
    assert Same(t0.arena, s1.tree.arena, b + 1, cond + 1);
    ConditionSame(t0.arena, s1.tree.arena, cond, b + 1, cond + 1);
    BlockFrame(tokens, s1);
    var r2 := ParseBlock(tokens, s1);
    if r2.Ok? {
      var t := r2.value.tree;
      GrowsSame(s1.tree, t, b + 1, cond + 1);
      GrowsSame(s1.tree, t, b, b + 1);
      assert Top(s1.tree) == |t0.arena|;
      ConditionSame(s1.tree.arena, t.arena, cond, b + 1, cond + 1);
      BlockFills(tokens, s1, |t0.arena|);
    }
  }

  /** The value after ASSIGN_OP goes into one fresh AssignNode as a flat
      chain of its children. */
  lemma InitializerShape(tokens: seq<Token>, s: State, name: string)
    requires WellFormed(s.tree) && s.index <= |tokens|
    ensures ParseInitializer(tokens, s, name).Ok? ==>
              var t := ParseInitializer(tokens, s, name).value.tree;
              var a := |s.tree.arena|;
              && Grows(s.tree, t) && Attached(s.tree, t) == [a] && t.stack == s.tree.stack
              && t.arena[a].kind == AssignNode(name)
              && ChainWithin(t.arena, t.arena[a].children, a + 1, |t.arena|)
  {
    ValueInside(tokens, s, AssignNode(name));
  }

  /** An assignment attaches one AssignNode named by its first token,
      holding the value as a flat chain. */
  lemma VarAssignShape(tokens: seq<Token>, s: State)
    requires WellFormed(s.tree) && s.index <= |tokens|
    ensures ParseVarAssign(tokens, s).Ok? ==>
              var t := ParseVarAssign(tokens, s).value.tree;
              var a := |s.tree.arena|;
              && Grows(s.tree, t) && Attached(s.tree, t) == [a]
              && s.index < |tokens| && a < |t.arena|
              && t.arena[a].kind == AssignNode(tokens[s.index].text)
              && ChainWithin(t.arena, t.arena[a].children, a + 1, |t.arena|)
  {
    if ParseVarAssign(tokens, s).Ok? {
      VarAssignHeader(tokens, s);
      InitializerShape(tokens, s.(index := s.index + 2), tokens[s.index].text);
    }
  }

  /** A successful assignment read NAME ASSIGN_OP, and its tree is the one
      the initializer built after them. */
  lemma VarAssignHeader(tokens: seq<Token>, s: State)
    requires s.index <= |tokens| && ParseVarAssign(tokens, s).Ok?
    ensures s.index + 2 <= |tokens|
    ensures ParseInitializer(tokens, s.(index := s.index + 2), tokens[s.index].text).Ok?
    ensures ParseVarAssign(tokens, s).value.tree
         == ParseInitializer(tokens, s.(index := s.index + 2), tokens[s.index].text).value.tree
  {
    var p1 := CheckAndStep(tokens, s, Name);
    var s1 := s.(index := s.index + 1);
    assert p1 == Ok((tokens[s.index].text, s1));
    var p2 := CheckAndStep(tokens, s1, AssignOp);
    assert p2 == Ok((tokens[s.index + 1].text, s.(index := s.index + 2)));
  }

  /** Whatever follows the definition node in the same context is
      attached after it, and the node keeps its kind. */
  lemma DefineThen(s0: Tree, kind: NodeKind, u: Tree)
    requires WellFormed(s0) && Grows(AddNode(s0, kind), u)
    ensures Grows(s0, u) && Attached(s0, u) == [|s0.arena|] + Attached(AddNode(s0, kind), u)
    ensures u.arena[|s0.arena|].kind == kind
  {
    var t := AddNode(s0, kind);
    AddNodeGrows(s0, kind);
    AttachedTrans(s0, t, u);
    assert u.arena[|s0.arena|] == t.arena[|s0.arena|];
  }

  /** What a definition attaches to the context `s0`: its VarDefineNode
      and, exactly when the token at `i` after VAR_TYPE NAME is ASSIGN_OP, a
      sibling AssignNode holding the initial value as a flat chain. */
  predicate DefinitionAttached(tokens: seq<Token>, i: nat, s0: Tree, t: Tree, kind: NodeKind, name: string) {
    var d := |s0.arena|;
    && i < |tokens| && Grows(s0, t)
    && Attached(s0, t) == [d] + (if tokens[i].kind == AssignOp then [d + 1] else [])
    && d < |t.arena| && t.arena[d].kind == kind
    && (tokens[i].kind == AssignOp ==>
          && d + 1 < |t.arena| && t.arena[d + 1].kind == AssignNode(name)
          && ChainWithin(t.arena, t.arena[d + 1].children, d + 2, |t.arena|))
  }

  /** A definition attaches one VarDefineNode named by its first two
      tokens and, exactly when ASSIGN_OP follows them, a sibling AssignNode
      holding the initial value as a flat chain. */
  lemma VarDefShape(tokens: seq<Token>, s: State)
    requires WellFormed(s.tree) && s.index <= |tokens|
    ensures ParseVarDef(tokens, s).Ok? ==>
              && s.index + 2 <= |tokens|
              && DefinitionAttached(tokens, s.index + 2, s.tree, ParseVarDef(tokens, s).value.tree,
                   VarDefineNode(tokens[s.index].text, tokens[s.index + 1].text), tokens[s.index + 1].text)
  {
    if ParseVarDef(tokens, s).Ok? {
      VarDefHeader(tokens, s);
      var kind := VarDefineNode(tokens[s.index].text, tokens[s.index + 1].text);
      var s3 := s.(index := s.index + 2, tree := AddNode(s.tree, kind));
      DefinitionThenRest(tokens, s.tree, kind, s3, tokens[s.index + 1].text);
    }
  }

  /** A definition succeeds only on VAR_TYPE NAME, and after those two
      tokens it continues with the VarDefineNode they name. */
  lemma VarDefHeader(tokens: seq<Token>, s: State)
    requires s.index <= |tokens|
    ensures ParseVarDef(tokens, s).Ok? ==> VarDefStart(tokens, s.index)
    ensures VarDefStart(tokens, s.index) ==>
              (ParseVarDef(tokens, s)
               == ParseVarDefRest(tokens, s.(index := s.index + 2, tree := AddNode(s.tree, VarDefineNode(tokens[s.index].text, tokens[s.index + 1].text))),
                                  tokens[s.index + 1].text))
  {
    var p1 := CheckAndStep(tokens, s, VarType);
    if p1.Ok? {
      var s1 := s.(index := s.index + 1);
      assert p1 == Ok((tokens[s.index].text, s1));
      var p2 := CheckAndStep(tokens, s1, Name);
      if p2.Ok? {
        assert p2 == Ok((tokens[s.index + 1].text, s.(index := s.index + 2)));
      }
    }
  }

  predicate VarDefStart(tokens: seq<Token>, i: nat) {
    i + 2 <= |tokens| && tokens[i].kind == VarType && tokens[i + 1].kind == Name
  }

  /** The definition node followed by the rest of the definition. */
  lemma DefinitionThenRest(tokens: seq<Token>, s0: Tree, kind: NodeKind, s: State, name: string)
    requires WellFormed(s0) && s.tree == AddNode(s0, kind) && s.index <= |tokens|
    ensures ParseVarDefRest(tokens, s, name).Ok? ==>
              DefinitionAttached(tokens, s.index, s0, ParseVarDefRest(tokens, s, name).value.tree, kind, name)
  {
    AddNodeGrows(s0, kind);
    VarDefRestShape(tokens, s, name);
    var r := ParseVarDefRest(tokens, s, name);
    if r.Ok? {
      DefineThen(s0, kind, r.value.tree);
    }
  }

  /** After the definition node, ASSIGN_OP decides whether one AssignNode
      holding the initial value is attached or nothing is. */
  lemma VarDefRestShape(tokens: seq<Token>, s: State, name: string)
    requires WellFormed(s.tree) && s.index <= |tokens|
    ensures ParseVarDefRest(tokens, s, name).Ok? ==>
              var t := ParseVarDefRest(tokens, s, name).value.tree;
              var a := |s.tree.arena|;
              && s.index < |tokens| && Grows(s.tree, t)
              && Attached(s.tree, t) == (if tokens[s.index].kind == AssignOp then [a] else [])
              && (tokens[s.index].kind == AssignOp ==>
                    && a < |t.arena| && t.arena[a].kind == AssignNode(name)
                    && ChainWithin(t.arena, t.arena[a].children, a + 1, |t.arena|))
  {
    GrowsRefl(s.tree);
    var q := StepIf(tokens, s, AssignOp);
    if q.Ok? && q.value.0 {
      InitializerShape(tokens, q.value.1, name);
    }
  }

  /** A call statement attaches exactly what its call attaches. */
  lemma CallStatementShape(tokens: seq<Token>, s: State)
    requires WellFormed(s.tree) && s.index <= |tokens|
    ensures ParseCallStatement(tokens, s).Ok? ==>
              var t := ParseCallStatement(tokens, s).value.tree;
              && Grows(s.tree, t) && Attached(s.tree, t) == [|s.tree.arena|]
              && s.index < |tokens| && |s.tree.arena| < |t.arena|
              && t.arena[|s.tree.arena|].kind == CallNode(tokens[s.index].text)
              && |t.arena[|s.tree.arena|].children| <= 1
  {
    CallShape(tokens, s);
  }
}

=== FILE: state.dfy ===
/** Parser state: the cursor, the tree under construction (an arena of nodes
    addressed by id, and the stack of open construction contexts, seeded
    with the root), the shared error log and the diagnostics printed so far. */
module ParseState {
  import opened Tokens
  import opened ErrorLog

  datatype Option<T> = None | Some(value: T)

  /** The syntax-tree node classes, reduced to their tree-assembly shape.
      Every node that is pushed as a construction context keeps an ordered
      child list; the `condition`, `elseBody`, `left` and `right` fields are
      ids of nodes owned by their parent rather than children. */
  datatype NodeKind =
    | RootBody
    | BodyNode
    | WhileNode(condition: Option<nat>)
    | BranchNode(condition: Option<nat>, elseBody: Option<nat>)
    | ConditionNode(left: nat, op: string, right: nat)
    | ConditionSide                       // the left or right container of a condition
    | CallNode(name: string)
    | ValueBody
    | VarDefineNode(varType: string, name: string)
    | AssignNode(name: string)
    | VarNameNode(name: string)
    | ConstantNode(literal: string, literalKind: Terminal)
    | MathOperationNode(op: string)

  datatype Node = Node(kind: NodeKind, children: seq<nat>)

  /** The tree under construction and the stack of open contexts. */
  datatype Tree = Tree(arena: seq<Node>, stack: seq<nat>)

  datatype State = State(index: nat, tree: Tree, errors: seq<ErrorRecord>, diags: seq<Diagnostic>)

  /** Outcome of a parsing step: a value, or the recoverable failure the
      source raises as an exception, with the state at the moment it was
      raised. */
  datatype Res<+T> = Ok(value: T) | Fail(st: State, msg: Msg) {
    predicate IsFailure() {
      Fail?
    }

    function PropagateFailure<U>(): Res<U>
      requires Fail?
    {
      Fail(st, msg)
    }

    function Extract(): T
      requires Ok?
    {
      value
    }
  }

  /** The state a production leaves behind, whether it succeeded or not. */
  function After(r: Res<State>): State {
    if r.Ok? then r.value else r.st
  }

  /** The state a production with a result value leaves behind. */
  function AfterPair<T>(r: Res<(T, State)>): State {
    if r.Ok? then r.value.1 else r.st
  }

  /** The stack is never empty and holds ids of existing nodes. */
  predicate WellFormed(t: Tree) {
    && |t.stack| > 0
    && (forall k :: 0 <= k < |t.stack| ==> t.stack[k] < |t.arena|)
  }

  /** The current construction context: the last id on the stack (the
      root, when the stack is empty). */
  function Top(t: Tree): nat {
    if |t.stack| == 0 then 0 else t.stack[|t.stack| - 1]
  }

  /** The number of children of the current context. */
  function ChildCount(t: Tree): nat {
    if Top(t) < |t.arena| then |t.arena[Top(t)].children| else 0
  }

  /** The tree `run` starts from: the root container alone on the stack. */
  function Initial(): (t: Tree)
    ensures WellFormed(t) && Top(t) == 0 && t.arena[0] == Node(RootBody, [])
  {
    Tree([Node(RootBody, [])], [0])
  }

  /** The state `run` starts from. */
  function InitialState(): State {
    State(0, Initial(), [], [])
  }

  // ---------------------------------------------------------------------
  // Tree primitives

  /** `addNode`: the new node becomes the last child of the current context. */
  function AddNode(t: Tree, kind: NodeKind): (r: Tree)
    ensures |r.arena| == |t.arena| + 1 && r.arena[|t.arena|] == Node(kind, [])
    ensures r.arena[..|t.arena|] == AddChild(t.arena, Top(t), |t.arena|)
    ensures r.stack == t.stack
  {
    Tree(AddChild(t.arena, Top(t), |t.arena|) + [Node(kind, [])], t.stack)
  }

  /** Appends `child` to the child list of node `id`. */
  function AddChild(arena: seq<Node>, id: nat, child: nat): (r: seq<Node>)
    ensures |r| == |arena|
    ensures id < |arena| ==> r[id] == arena[id].(children := arena[id].children + [child])
    ensures forall i :: 0 <= i < |arena| && i != id ==> r[i] == arena[i]
  {
    if id < |arena| then arena[id := arena[id].(children := arena[id].children + [child])] else arena
  }

  /** `addAndPushNode`: add the node, then make it the current context. */
  function AddAndPush(t: Tree, kind: NodeKind): (r: Tree)
    ensures r.arena == AddNode(t, kind).arena
    ensures r.stack == t.stack + [|t.arena|] && Top(r) == |t.arena|
  {
    Push(AddNode(t, kind), |t.arena|)
  }

  /** Creates a node that is owned through a field rather than as a child. */
  function Alloc(t: Tree, kind: NodeKind): (r: Tree)
    ensures r.arena == t.arena + [Node(kind, [])] && r.stack == t.stack
  {
    Tree(t.arena + [Node(kind, [])], t.stack)
  }

  /** Sets a field of a node (a condition or an else-body reference). */
  function SetKind(t: Tree, id: nat, kind: NodeKind): (r: Tree)
    ensures |r.arena| == |t.arena| && r.stack == t.stack
    ensures id < |t.arena| ==> r.arena[id] == t.arena[id].(kind := kind)
    ensures forall i :: 0 <= i < |t.arena| && i != id ==> r.arena[i] == t.arena[i]
  {
    if id < |t.arena| then Tree(t.arena[id := t.arena[id].(kind := kind)], t.stack) else t
  }

  /** Makes node `id` the current context. */
  function Push(t: Tree, id: nat): (r: Tree)
    ensures r.stack == t.stack + [id] && r.arena == t.arena
  {
    Tree(t.arena, t.stack + [id])
  }

  /** Closes the current context. */
  function Pop(t: Tree): (r: Tree)
    ensures r.stack == if |t.stack| == 0 then [] else t.stack[..|t.stack| - 1]
    ensures r.arena == t.arena
  {
    if |t.stack| == 0 then t else Tree(t.arena, t.stack[..|t.stack| - 1])
  }

  function Min(a: nat, b: nat): nat {
    if a <= b then a else b
  }

  /** Keeps the first `count` children of node `id`. */
  function Truncate(arena: seq<Node>, id: nat, count: nat): (r: seq<Node>)
    ensures |r| == |arena|
    ensures id < |arena| ==> r[id] == arena[id].(children := arena[id].children[..Min(count, |arena[id].children|)])
    ensures forall i :: 0 <= i < |arena| && i != id ==> r[i] == arena[i]
  {
    if id < |arena| then
      arena[id := arena[id].(children := arena[id].children[..Min(count, |arena[id].children|)])]
    else arena
  }

  /** The tree half of the rollback in `tryStep`: pop the contexts above
      the snapshotted depth, then cut the now-current context's children
      back to the snapshotted count. */
  function Restore(t: Tree, depth: nat, count: nat): (r: Tree)
    ensures r.stack == t.stack[..Min(depth, |t.stack|)]
    ensures r.arena == Truncate(t.arena, Top(r), count)
  {
    var popped := Tree(t.arena, t.stack[..Min(depth, |t.stack|)]);
    Tree(Truncate(t.arena, Top(popped), count), popped.stack)
  }

  // ---------------------------------------------------------------------
  // State-level steps

  /** `step`: advance the cursor by one token. */
  function Advance(s: State): (r: State)
    ensures r == s.(index := s.index + 1)
  {
    s.(index := s.index + 1)
  }

  /** The rollback half of `tryStep`: given the cursor, stack depth and
      child count snapshotted before the production ran, and the state `t`
      in which it failed, record the failure at the position where it
      happened, restore the cursor and restore the tree. Its contract
      only names the pieces; that they undo a failed attempt is
      `RestoreUndoes` and `ParserRecovery.TryStepRollback`. */
  function Rollback(startIndex: nat, depth: nat, count: nat, t: State, msg: Msg): (r: State)
    ensures r.index == startIndex && r.diags == t.diags
    ensures r.errors == t.errors + [ErrorRecord(t.index, msg)]
    ensures r.tree == Restore(t.tree, depth, count)
  {
    State(startIndex, Restore(t.tree, depth, count), t.errors + [ErrorRecord(t.index, msg)], t.diags)
  }

  // ---------------------------------------------------------------------
  // How the primitives move the tree

  /** What any parsing step may do to the tree: append new nodes to the
      arena, append new nodes to the children of the current context, push
      contexts, and change the nodes it created itself. Every other node it
      leaves untouched, and the stack it started with stays underneath. */
  predicate Grows(s: Tree, t: Tree) {
    && WellFormed(s)
    && WellFormed(t)
    && |s.arena| <= |t.arena|
    && (forall i :: 0 <= i < |s.arena| && i != Top(s) ==> t.arena[i] == s.arena[i])
    && t.arena[Top(s)].kind == s.arena[Top(s)].kind
    && s.arena[Top(s)].children <= t.arena[Top(s)].children
    && (forall k :: |s.arena[Top(s)].children| <= k < |t.arena[Top(s)].children| ==>
          |s.arena| <= t.arena[Top(s)].children[k] < |t.arena|)
    && s.stack <= t.stack
  }

  /** Nodes a step appended to the context it started in. */
  function Attached(s: Tree, t: Tree): seq<nat>
    requires Grows(s, t)
  {
    t.arena[Top(s)].children[|s.arena[Top(s)].children|..]
  }

  lemma GrowsRefl(s: Tree)
    requires WellFormed(s)
    ensures Grows(s, s) && Attached(s, s) == []
  {
  }

  /** Two steps compose when the second starts in the same context as the
      first or in a context the first created. */
  lemma GrowsTrans(s: Tree, t: Tree, u: Tree)
    requires Grows(s, t) && Grows(t, u)
    requires Top(t) == Top(s) || |s.arena| <= Top(t)
    ensures Grows(s, u)
  {
  }

  /** Composition in the same context concatenates what was attached. */
  lemma AttachedTrans(s: Tree, t: Tree, u: Tree)
    requires Grows(s, t) && Grows(t, u) && Top(t) == Top(s)
    ensures Grows(s, u) && Attached(s, u) == Attached(s, t) + Attached(t, u)
  {
  }

  /** Work done inside a context the first step created leaves what the
      first step attached, and the kind of every node it attached, alone. */
  lemma AttachedNested(s: Tree, t: Tree, u: Tree)
    requires Grows(s, t) && Grows(t, u) && |s.arena| <= Top(t)
    ensures Grows(s, u) && Attached(s, u) == Attached(s, t)
  {
    GrowsTrans(s, t, u);
  }

  /** Changing, allocating or pushing nodes that a step created itself
      keeps it a growth of the tree it started from. */
  lemma FreshEdit(s: Tree, t: Tree, u: Tree)
    requires Grows(s, t) && WellFormed(u)
    requires |t.arena| <= |u.arena| && t.stack <= u.stack
    requires forall i :: 0 <= i < |s.arena| ==> u.arena[i] == t.arena[i]
    ensures Grows(s, u) && Attached(s, u) == Attached(s, t)
  {
  }

  /** `addNode` appends exactly the new node to the current context. */
  lemma AddNodeGrows(s: Tree, kind: NodeKind)
    requires WellFormed(s)
    ensures Grows(s, AddNode(s, kind)) && Attached(s, AddNode(s, kind)) == [|s.arena|]
  {
  }

  /** `addAndPushNode` appends the new node and makes it the context. */
  lemma AddAndPushGrows(s: Tree, kind: NodeKind)
    requires WellFormed(s)
    ensures Grows(s, AddAndPush(s, kind)) && Attached(s, AddAndPush(s, kind)) == [|s.arena|]
  {
    AddNodeGrows(s, kind);
  }

  /** Closing a context a step opened returns to the stack it started with. */
  lemma PopGrows(s: Tree, t: Tree)
    requires Grows(s, t) && |s.stack| < |t.stack|
    ensures Grows(s, Pop(t)) && |Pop(t).stack| == |t.stack| - 1
    ensures |t.stack| == |s.stack| + 1 ==> Pop(t).stack == s.stack
    ensures Attached(s, Pop(t)) == Attached(s, t)
  {
    assert s.stack <= Pop(t).stack;
  }

  /** Restoring after a failed step gives back the stack and every node as
      they were before the step; nodes allocated in between stay in the
      arena but are no longer reachable. */
  lemma RestoreUndoes(s: Tree, t: Tree)
    requires Grows(s, t)
    ensures Grows(s, Restore(t, |s.stack|, ChildCount(s)))
    ensures Restore(t, |s.stack|, ChildCount(s)).stack == s.stack
    ensures Restore(t, |s.stack|, ChildCount(s)).arena[..|s.arena|] == s.arena
  {
    var r := Restore(t, |s.stack|, ChildCount(s));
    assert r.stack == s.stack;
    assert r.arena[Top(s)] == s.arena[Top(s)];
    assert forall i :: 0 <= i < |s.arena| ==> r.arena[i] == s.arena[i];
  }
}

=== FILE: tokens.dfy ===
/** Tokens as the lexer hands them to the parser. Only the resolved terminal
    type, the matched text and the source offset are visible to the parser. */
module Tokens {

  /** The terminal types the parser compares against (by equality only). */
  datatype Terminal =
    | LineEnd
    | BodyOpen
    | BodyClose
    | VarType
    | Name
    | AssignOp
    | MathOp
    | ConditionOp
    | Comma
    | BracedOpen
    | BracedClose
    | WhileOp
    | IfOp        // spelled IF_OF in the source enumeration
    | Else
    | Digit
    | DigitNatural
    | Boolean

  /** A lexed token: its type, the text it matched and its source offset. */
  datatype Token = Token(kind: Terminal, text: string, start: nat)

  /** Terminal types a literal constant may carry. */
  predicate IsLiteral(t: Terminal) {
    t == Digit || t == DigitNatural || t == Boolean
  }

  /** Terminal types a value expression may start with. */
  predicate StartsValue(t: Terminal) {
    t == BracedOpen || t == Name || IsLiteral(t)
  }
}
